=== FILE: README.md ===
# KRMU EchoSense — a Dafny model of its client and function logic

KRMU EchoSense is a small sustainability-awareness site for one university. Students sign in
with their institutional address (`@krmu.edu.in`). They take a twenty-question flashcard quiz
and can look up recent sign-in activity. A serverless function mails sign-in links. A build
script turns a `.env` file into the browser's Firebase settings.

This project models the deterministic parts of that code as pure Dafny functions over
immutable values and proves properties about them. Storage, the DOM, the clock, timers and
the Firebase/Resend SDKs become parameters or abstract outcomes.

| file | modules | models |
|---|---|---|
| `send_link.dfy` | `RateLimit`, `SendLink` | the per-address limiter and the status-code routing of the `send-link` function |
| `script.dfy` | `QuizData`, `Quiz`, `LoginForm` | the question bank, the flashcard quiz state machine, the sign-in form's validation |
| `ui.dfy` | `HtmlEscape`, `RelativeTime` | `escapeHtml` and `timeAgo` |
| `auth.dfy` | `OtpInput`, `ResendTimer`, `AuthService` | the six-digit code widget, the resend countdown, `signIn` / `signUp` |
| `stats.dfy` | `Csv`, `Activity` | the activity search, row rendering and CSV export |
| `session_guard.dfy` | `SessionGuard` | the redirect decision every page makes on load |
| `theme.dfy` | `Theme` | theme preference, resolution, `setTheme` and the toggle buttons |
| `generate_config.dfy` | `EnvConfig` | the `.env` reader and the exported configuration |
| `text.dfy`, `wrappers.dfy` | `Text`, `Wrappers` | shared string helpers (ASCII lower-casing, JavaScript `trim`, `split`/`join`, decimal rendering) and `Option` |

Behaviours of the code worth knowing:

- The code has no department leaderboard, volunteer tally or live-feed cap.
- `finishQuiz` has no double-submit guard: pressing next on the last card submits again.
- The session guard always sends a signed-in visitor from the login page to the dashboard.
  It is not configurable.
- `initQuiz` does not reset the score. Only loading the page sets it to 0, so a second
  `initQuiz` on the same page carries the earlier score into the next submission.
  `Quiz.Start` and `Quiz.Run` take the session before the call.
- The sign-in form's password rule counts UTF-16 code units, as `pass.length` does.
  `LoginForm.AstralPasswordIsLongEnough` shows a three-emoji password passing it.
- In `client/script.js`, `setupAuthPage` is not called from `initApp` or anywhere else.
  Its handlers also read `isRegistering`, which is never declared. The submit handler
  therefore throws a `ReferenceError` once validation passes, and the model covers only
  the validation.
- `initStats` in `client/js/stats.js` first reads `authResponse`, which that module does not
  declare. Unless a page script defines it globally, the read throws, the error is caught,
  and the activity fetch and the search and export listeners are never set up.
- The guard passes relative URLs to `location.replace`, so the target is resolved against the
  current directory. A signed-out visit to `/stats.html/` goes to `/stats.html/index.html`,
  which contains `stats.html` and is sent to itself again, without end.
  `SessionGuard.SlashAfterPageLoops` shows this.
- The limiter treats a stored `lastRequest` of 0 as "no earlier request", because it tests
  the field's truthiness. `RateLimit.ZeroTimestampSkipsSpacing` states this.

## Model

| member | source | states |
|---|---|---|
| RateLimit.CheckRateLimit | netlify/functions/send-link.js:54-82 | Only the lower-cased address's record changes. A new address is allowed and recorded as count 1, last request now. For a known address: the window resets only after more than an hour, even when the request is then refused. The answer is "wait" exactly when the last allowed request is under 30 s old, with the wait rounded up to whole seconds. It is "too many" exactly when the count has reached 5. Otherwise it is allowed, and only then do the count and last request change. |
| RateLimit.CountNeverExceedsMax | netlify/functions/send-link.js:74-81 | If every record's count is between 0 and 5 before a request, this still holds after it. |
| RateLimit.KeysIgnoreCase | netlify/functions/send-link.js:56 | Two spellings of an address that lower-case alike get the same answer and the same store. |
| RateLimit.WaitSecondsInRange | netlify/functions/send-link.js:69-72 | When the clock has not gone backwards, the wait is between 1 and 30 seconds. A request 30 s or more after the last one passes the spacing check. |
| RateLimit.AllowedWithinWindow | netlify/functions/send-link.js:64-81 | Within one window, a sequence of requests is allowed at most as often as the record's remaining budget. |
| RateLimit.AtMostFivePerWindow | netlify/functions/send-link.js:50-81 | Starting from a first request, at most five requests within the following hour are allowed. |
| RateLimit.SpacedInWindow | netlify/functions/send-link.js:58-81 | Requests at least 30 s apart, inside the record's hour, are allowed while the count is under 5 and refused as too many from then on, whatever their number. |
| RateLimit.FiveSpacedRequestsThenRefused | netlify/functions/send-link.js:69-81 | Five requests 30 s apart are all allowed; a sixth, 30 s later, is refused as too many. |
| RateLimit.TwentyNineSecondsIsTooSoon | netlify/functions/send-link.js:69-72 | A request 29 s after an allowed one is told to wait 1 second. |
| RateLimit.ZeroTimestampSkipsSpacing | netlify/functions/send-link.js:58-72 | A request allowed at time 0 leaves a falsy `lastRequest`, so a request 1 ms later is allowed too. |
| SendLink.ValidateEmail | netlify/functions/send-link.js:38-46 | An address is accepted exactly when it passes the format check and its lower-cased form ends in `@krmu.edu.in`. The accepted value is the lower-cased form. |
| SendLink.Handle | netlify/functions/send-link.js:84-238 | OPTIONS gets 200 with an empty body. Any other non-POST gets 405. An invalid address gets the generic 200 and leaves the limiter untouched. A valid address is charged to the limiter: a refusal gets 429 with the limiter's message, and everything else gets the generic 200. A link is mailed, to the lower-cased address, exactly when the limiter allows it, the Admin SDK has an app, the mail client exists, and link generation and sending both succeed. No other status is possible. |
| SendLink.ResponseIgnoresServices | netlify/functions/send-link.js:139-237 | The answer and the limiter state are the same whether Firebase and Resend are configured, fail or succeed; only whether a link is mailed depends on them. |
| SendLink.DeliveryIsInvisible | netlify/functions/send-link.js:139-237 | For an allowed address, a request whose mail is sent and one whose sending throws get the same answer, although only the first mails a link. |
| SendLink.PostIsGenericOrRateLimited | netlify/functions/send-link.js:113-237 | A POST gets either the generic success, or 429 and only for an address the schema accepted. |
| QuizData.BankWellFormed | client/script.js:14-35 | There are twenty questions and each one's answer indexes an existing option. |
| QuizData.CorrectAnswerLabel | client/script.js:118 | The card's back names the option at the question's answer index, which is one of its options. |
| Quiz.Start | client/script.js:37-55 | A quiz starts at question 0, unlocked, with the given roll number. It keeps the score it had, which is 0 straight after the page loads. |
| Quiz.Load | client/script.js:107-113 | Loading a question unlocks it and keeps the score and roll number. |
| Quiz.Answer | client/script.js:163-191 | Answering while locked changes nothing. Otherwise the question locks; a skip scores 0, the correct option +5 and any other -1. |
| Quiz.AnswerOnce | client/script.js:163-165 | A second answer to the same question leaves the session as the first answer left it. |
| Quiz.Finish | client/script.js:212-222 | The submission carries the session's roll and score, a total of 100, dept "Flashcard" and volunteer "Yes". Its pledge is "Final Score: " followed by a decimal that reads back as the score. |
| Quiz.PlayAddsDeltas | client/script.js:157-191 | Answering and pressing next across a run of questions adds exactly the sum of the per-question deltas to the score. |
| Quiz.SumDeltasBounds | client/script.js:171-191 | k scored questions move the score by between -k and 5k. |
| Quiz.AllCorrectScoresFive | client/script.js:178-183 | k correct answers score 5k. |
| Quiz.AllSkippedScoresZero | client/script.js:172-177 | k skips score 0. |
| Quiz.Run | client/script.js:37-222 | A full quiz submits the carried-over score plus the sum of the deltas of its twenty answers, for the given roll number. The first quiz after the page loads submits between -20 and 100. |
| Text.Utf16Length | client/script.js:90 | A string's JavaScript length is between its character count and twice that. |
| Text.Utf16LengthOfBmp | client/script.js:90 | Without characters outside the Basic Multilingual Plane, the JavaScript length is the character count. |
| Text.Utf16LengthOfAstral | client/script.js:90 | Each character outside the Basic Multilingual Plane counts as two code units. |
| LoginForm.Validate | client/script.js:80-95 | The form is rejected for the roll number exactly when the trimmed input is not 5 to 15 ASCII letters or digits. It is rejected for the password exactly when the roll is fine and the password is under 6 UTF-16 code units. Otherwise the credentials are the trimmed roll at `@krmu.edu.in` and the password unchanged. |
| LoginForm.AstralPasswordIsLongEnough | client/script.js:90 | A password of three characters outside the Basic Multilingual Plane is six code units long and passes. Two such characters are too short. |
| LoginForm.CredentialsRoundTrip | client/script.js:82-95 | The roll number can be read back from an accepted address, and it is a valid roll number. |
| LoginForm.CredentialsPassServerSuffixRule | client/script.js:95 | An accepted address still ends in `@krmu.edu.in` after lower-casing. |
| HtmlEscape.EscapeHtmlSpec | client/js/ui.js:119-127 | A non-string gives "". A string gives the per-character entity map. The output has no `<`, `>`, `"` or `'`, is never shorter, and equals the input when there is nothing to escape. |
| HtmlEscape.EscapeChainIsPerCharacter | client/js/ui.js:121-126 | The chain of five global replacements, with `&` first, equals mapping each character on its own, so no entity is escaped twice. |
| HtmlEscape.UnescapeEscape | client/js/ui.js:119-127 | Decoding the five entities gives back the original text, so escaping loses nothing. |
| RelativeTime.Bucket | client/js/ui.js:136-152 | The label is "just now" exactly up to 60 s. Otherwise the unit is the largest whose length is strictly exceeded, and the count is the whole number of units elapsed. Minutes run 1-60, hours 1-24, days 1-30, months 1-12 and years from 1. |
| RelativeTime.ElapsedIsFloor | client/js/ui.js:133-134 | The elapsed seconds are the floor of the millisecond difference over 1000, negative differences included. |
| RelativeTime.JustNowCases | client/js/ui.js:132-152 | Invalid dates, future dates and anything under 61 s old read "just now". |
| RelativeTime.Boundaries | client/js/ui.js:136-152 | 60 s reads "just now", 61 s "1 mins ago", 3600 s "60 mins ago" and 3601 s "1 hours ago". |
| RelativeTime.BucketMonotone | client/js/ui.js:136-152 | More elapsed time never gives a label that looks more recent. |
| OtpInput.Setup | client/js/auth.js:135-156 | The widget starts with six empty fields, none focused, and the code read from it is "". |
| OtpInput.OnInput | client/js/auth.js:158-181 | The field keeps only the last digit typed, or becomes empty. Focus moves to the next field only after a digit and never past the sixth. The form is submitted only from the sixth field, after a digit, with all six fields filled. |
| OtpInput.LastDigitIsLastTyped | client/js/auth.js:159-160 | The digit a field keeps is the last decimal digit in the typed text. |
| OtpInput.OnKeyDown | client/js/auth.js:184-200 | Backspace in an empty field after the first clears the previous field and focuses it. The arrows move focus one field within the six. A field changes only under that Backspace, and focus moves only under that Backspace or an arrow that stays within the six. |
| OtpInput.OnPaste | client/js/auth.js:203-230 | The pasted digits, at most six, fill the fields from the first whichever field got the paste. Later fields are unchanged. Focus goes to field min(count, 5), and the form is submitted exactly when six digits were pasted. |
| OtpInput.PasteThenValue | client/js/auth.js:203-242 | After a paste the code read back starts with the pasted digits. Six pasted digits are exactly the code. |
| OtpInput.ValueOfValid | client/js/auth.js:239-242 | The code is at most six digits, and six exactly when every field is filled. |
| OtpInput.Clear | client/js/auth.js:244-251 | After clearing, every field is empty, the first is focused and the code is "". |
| ResendTimer.StartDefault | client/js/auth.js:105-125 | Without a length the countdown runs 30 seconds: the button is disabled and reads "Resend code (30s)", with a tick pending. |
| ResendTimer.Start | client/js/auth.js:105-125 | Without the button nothing happens. Otherwise a positive n disables the button at once and labels it "Resend code (n s)" with a tick pending. Zero or less re-enables it at once. |
| ResendTimer.Clear | client/js/auth.js:127-132 | Clearing cancels the pending tick and changes nothing else. |
| ResendTimer.Countdown | client/js/auth.js:113-122 | After k < n ticks the button is disabled and shows n - k seconds. After n ticks it reads "Resend code", is enabled and nothing is pending. |
| ResendTimer.QuietAfterCountdown | client/js/auth.js:118-121 | Once the countdown has run out, further ticks change nothing. |
| ResendTimer.RestartForgets | client/js/auth.js:109-111 | Restarting depends only on the new length, not on the earlier countdown. |
| AuthService.SignIn | client/js/auth.js:289-311 | An address outside `@krmu.edu.in` is refused before the provider is called, and so is any address without the SDK. Success happens exactly when the provider accepts, and only success sets `krmu_session` to "true". A provider error gets the mapped message. |
| AuthService.SignUp | client/js/auth.js:313-339 | The same precheck applies. Success requires the account to be created and, for a non-empty display name, the profile update to succeed. Only success sets the session flag. A failed creation gets the mapped message, and so does a failed profile update after the account was created. |
| AuthService.SendPasswordReset | client/js/auth.js:341-356 | Only the SDK check comes before the provider call; there is no domain precheck. Success happens exactly when the provider accepts, and the session flag is never touched. A provider error gets the reset message table's entry. |
| AuthService.ResetSkipsDomainCheck | client/js/auth.js:289-356 | An address outside `@krmu.edu.in` that sign-in refuses before the provider still reaches the provider for a reset. |
| AuthService.MessagesAgreeAcrossFlows | client/js/auth.js:289-356 | Sign-in, sign-up and reset word a shared error code alike. No provider error message equals the domain or SDK precheck message. |
| AuthService.FormCredentialsReachProvider | client/js/auth.js:291-301 | If the addresses the sign-in form builds were handed to `signIn`, they would always pass its domain precheck and reach the provider, whose answer alone would decide the result. The form itself calls the SDK directly. |
| SessionGuard.Guard | client/js/session-guard.js:8-25 | At most one redirect. The dashboard redirect happens exactly for a login-page path with the session flag "true". The login redirect happens exactly for a protected path without it. Any other case gets none. |
| SessionGuard.TargetsAreStable | client/js/session-guard.js:7-25 | The redirect target is resolved against the current page's directory. The dashboard it leads to never redirects again. The login page it leads to redirects again, to itself, exactly when that directory already names a protected page. |
| SessionGuard.LoginPageProtectedByDir | client/js/session-guard.js:10 | Appending `index.html` to a directory makes it protected exactly when the directory already was, since no protected name can reach across the seam. |
| SessionGuard.SlashAfterPageLoops | client/js/session-guard.js:7-25 | A signed-out visit to `/stats.html/` is sent to `/stats.html/index.html`, which is sent to itself again. |
| SessionGuard.SignedInIsForwarded | client/js/session-guard.js:13-18 | After a successful sign-in, the login page forwards to the dashboard and every other page stays put. |
| SessionGuard.SignedOutIsTurnedAway | client/js/session-guard.js:21-25 | Without a session flag, exactly the protected pages redirect to the login page. |
| Theme.Parse | client/js/theme.js:7 | Exactly the names "light", "dark" and "system" are recognised, and each parses to the theme of that name. |
| Theme.ParseName | client/js/theme.js:7 | Every theme's name parses back to that theme. |
| Theme.Resolve | client/js/theme.js:22-28 | The applied theme is never "system". It equals the preference unless that is system, in which case it is dark exactly when the OS prefers dark. |
| Theme.Apply | client/js/theme.js:34-42 | The root gets the theme's name. The meta colour, where the tag exists, is "#0a0a0c" for dark and "#ffffff" otherwise. Storage is untouched. |
| Theme.SetTheme | client/js/theme.js:48-58 | An unknown value changes nothing and dispatches no event. A known value is stored and becomes the preference. The resolved theme is applied to `data-theme` and, where the tag exists, to the `theme-color` meta tag. One event carries the value and the resolved theme. |
| Theme.SetThemeIdempotent | client/js/theme.js:48-58 | Choosing the same theme twice leaves the page as choosing it once. |
| Theme.ChoicePersists | client/js/theme.js:48-67 | Initialising the page a theme choice left, as a reload does, changes nothing. |
| Theme.CreateToggle | client/js/theme.js:82-134 | There are three buttons, and exactly the one of the stored preference is active. |
| Theme.Click | client/js/theme.js:137-149 | A click sets that button's theme and makes exactly that button active. |
| Theme.ClickAgreesWithToggle | client/js/theme.js:137-149 | After a click the active buttons match the stored preference, as a freshly created toggle's would. |
| Activity.Search | client/js/stats.js:131-137 | Every entry kept is listed and matches the lower-cased query by name or by roll number (or email), and none is added. |
| Activity.SearchMembership | client/js/stats.js:133-137 | An entry is kept exactly when it is listed and matches. |
| Activity.SearchAppend | client/js/stats.js:133-137 | Searching a concatenation searches each part in turn, so the kept entries stay in their original order. |
| Activity.SearchEmptyQuery | client/js/stats.js:131-137 | An empty query keeps every entry. |
| Activity.SearchIdempotent | client/js/stats.js:131-137 | Searching the result again with the same query changes nothing. |
| Activity.SearchIgnoresCase | client/js/stats.js:132 | A query and its lower-cased form keep the same entries. |
| Activity.RenderRow | client/js/stats.js:107-124 | The badge is primary and the action "Logged in" exactly when the purpose is "login"; otherwise the action is "Requested OTP". The student and roll cells decode back to the name (else "Unknown User") and to roll, else email, else "-", with no `<` or `>`. |
| Activity.RenderTable | client/js/stats.js:95-126 | No entries give the "No activity found" placeholder. Otherwise there is one row per entry, in order. |
| Activity.HandleSearchCases | client/js/stats.js:131-139 | An empty query renders the full table, and a query nothing matches renders the placeholder. |
| Activity.Cells | client/js/stats.js:151-157 | Five cells per entry, in header order. Time and action are the raw fields as a template literal prints them. Name falls back to "Unknown", and roll and email to "". |
| Activity.ExportCsvAsWritten | client/js/stats.js:144-163 | There is no export exactly when there is no activity. An export begins with the header line. |
| Activity.ExportCsv | client/js/stats.js:144-163 | There is no export exactly when there is no activity. An export begins with the header line. |
| Activity.ExportLines | client/js/stats.js:160-163 | When no cell has a line break, the corrected export is the header line followed by one line per entry. Each line reads back as exactly that entry's five cells. |
| Activity.ExportAgreesWithoutQuotes | client/js/stats.js:162 | When no cell holds a double quote, the export as written equals the corrected one. |
| Csv.RecordRoundTrip | client/js/stats.js:162 | A record written with doubled quotes reads back as its cells. |
| Csv.AsWrittenWithoutQuotes | client/js/stats.js:162 | Without quotes inside cells, the record as written reads back as its cells. |
| Csv.AsWrittenSplitsCell | client/js/stats.js:162 | As written, the single cell `x","y` reads back as the two cells `x` and `y`. |
| EnvConfig.ParseLineAsWritten | scripts/generate-config.js:20-23 | A line is read exactly when its first `=` has at least one character before it and no line terminator after it. The key and value are the trimmed text before and after that `=`, so later `=` signs stay in the value. |
| EnvConfig.ParseLine | scripts/generate-config.js:19-23 | The corrected reader drops one trailing carriage return first. It agrees with the reader as written on lines without one. |
| EnvConfig.LoadLinesValue | scripts/generate-config.js:17-29 | After loading, a variable keeps a non-empty value it already had. Otherwise it holds the first non-empty value the file gives it, or nothing usable. |
| EnvConfig.Config | scripts/generate-config.js:34-37 | The configuration lists the seven exported keys in order. A value is non-empty exactly when the environment holds a non-empty value for that key. |
| EnvConfig.ConfigValue | scripts/generate-config.js:5-37 | Each exported value is the environment's non-empty value if there was one, else the first non-empty value in the `.env` file, else "". |
| EnvConfig.LineRoundTrip | scripts/generate-config.js:20-23 | `KEY=value`, with a key free of `=` and a value on one line, reads back as the trimmed key and value. |
| EnvConfig.CrLineIgnored | scripts/generate-config.js:20 | As written, a line ending in a carriage return is never read. |
| EnvConfig.CrLinesIgnored | scripts/generate-config.js:19-28 | As written, the lines of a CRLF file set no variable at all. |
| EnvConfig.SplitFileText | scripts/generate-config.js:19 | Splitting a file's text at `\n` gives back its lines, plus one empty line after a final line break. |
| EnvConfig.EmptyLastLineIgnored | scripts/generate-config.js:19-27 | The empty line after a final line break sets nothing. |
| EnvConfig.CrlfFileIgnored | scripts/generate-config.js:19-28 | As written, a file with CRLF line endings sets no variable at all, whether or not its last line ends in a line break. |
| EnvConfig.CrlfExampleIgnored | scripts/generate-config.js:19-28 | As written, the file `A=1\r\nB=2\r\n` sets nothing. |
| EnvConfig.CrLinesReadAlike | scripts/generate-config.js:19-28 | With the trailing carriage return stripped first, the lines of a CRLF file set exactly the variables the same lines without it set when read as written. |
| EnvConfig.CrlfFileLoadsLikeLf | scripts/generate-config.js:19-28 | The corrected reader loads a CRLF file exactly as the reader as written loads the same file with LF endings, whether or not the last line ends in a line break. |

## Left out

- I/O and the SDKs are not modelled: Firebase Auth, the Admin SDK's link generation, the Realtime Database push in `finishQuiz`, Resend, `fetch`, and the HTML mail template. Their results are parameters: `Services`, `Outcome`, `sdkLoaded`, `parse`.
- The DOM and `localStorage` become values: `Widget`, `Page`, `Storage`. `process.env` becomes the map `Env`. Toasts, alerts, CSS classes, spinners and animation are left out because they do not affect any modelled decision.
- Timers are not modelled as time: the resend countdown advances by explicit ticks. The 100 ms delay before a pasted code is submitted, `debounce` and the search debounce are left out.
- `onAuthStateChanged` is left out. It only forwards to the SDK when the SDK is present.
- The rest of `setupAuthPage` is left out: the register/login toggle, and the submit handler after validation. Both read the undeclared `isRegistering` and throw. Had it been declared, the handler would call the SDK's `signInWithEmailAndPassword` or `createUserWithEmailAndPassword` directly, not `signIn` in `client/js/auth.js`.
- `initTheme`'s listener for OS theme changes is left out. It only re-applies `Theme.Resolve` when the preference is "system".
- The JSON serialisation of the configuration (`JSON.stringify`) and the file writes in `scripts/generate-config.js` are left out.
- `client/js/glass-shine.js`, `client/js/firebase-init.js`, `client/js/dashboard.js` and `client/questions.js` are not part of this model. They hold pointer maths, SDK setup, mock data and unused question data.
- `setupLiveDashboard` in `client/script.js` is left out. It depends on `parseInt` and a floating-point average.
- The DOM-based `escapeHtml` in `client/script.js` is left out. It depends on the browser's HTML serialiser.
- SendLink.ValidateEmail: zod's e-mail format check is the opaque predicate `isEmail`, not a model of zod's pattern.
- RateLimit.CheckRateLimit: the in-memory map lives only as long as one function instance. Concurrent invocations on separate instances are not modelled.
- OtpInput.OnInput: `submit` means the submit event is dispatched to the enclosing form. The source first checks that a form exists, and the model assumes it does.
- OtpInput.OnPaste: as for `OnInput`, the model assumes the enclosing form exists.
- Text.Lower: lower-casing covers ASCII letters only. JavaScript's `toLowerCase` also maps other Unicode letters, so searches and keys differ from the source on non-ASCII text.
- Activity.RenderRow: `new Date(created_at + "Z")` is the parameter `parse`, so the date formats it accepts are not modelled.
- Activity.RenderRow: record fields are assumed to be strings, `null` or missing. A number or other JSON value would make `escapeHtml` return an empty cell, and this is not modelled.
- Activity.Search: record fields are assumed to be strings, `null` or missing. A truthy non-string `name`, `roll_number` or `email` makes `toLowerCase` throw, and this is not modelled.
- Activity.ExportCsv: states when an export exists and that it begins with the header line. Its lines and their cells are stated through `Activity.ExportLines`.
- Activity.ExportCsvAsWritten: states only when an export exists and that it begins with the header line. Its line structure is stated through `Activity.ExportAgreesWithoutQuotes` and the corrected `Activity.ExportLines`.
- Activity.ExportLines: assumes no cell contains a line break. A quoted line break would need a multi-line reader.
- Quiz.Answer: option buttons are not modelled as DOM elements. Any integer other than -1 is scored against the correct index.

## Findings

| source | as written | input that shows it | evidently intended | confidence | as-written member | corrected member |
|---|---|---|---|---|---|---|
| client/js/stats.js:162 | each cell is wrapped in `"` with quotes inside it left undoubled | a name `x","y` exports as one cell but reads back as the two cells `x` and `y`, shifting the columns | quoted cells with inner quotes doubled, as section 2 of RFC 4180 requires | high, not executed | Csv.AsWrittenSplitsCell | Csv.RecordRoundTrip |
| scripts/generate-config.js:20 | the pattern `^([^=]+)=(.*)$` is applied to lines split on `\n` only | `KEY=value\r`, a line of a CRLF file, does not match because `.` does not match `\r`; the whole file `A=1\r\nB=2\r\n` sets nothing | lines of CRLF files read like LF lines, since the value is trimmed anyway | high, not executed | EnvConfig.CrlfFileIgnored | EnvConfig.CrlfFileLoadsLikeLf |

=== FILE: auth.dfy ===
/** The six-digit one-time-code widget of `setupOTPInput`: six text fields, each empty
    or holding one digit, and the field that has the focus. DOM events become
    functions from the widget before to the widget after, plus whether the
    surrounding form is submitted. */
module OtpInput {
  import opened Wrappers
  import opened Text

  const Slots: nat := 6

  datatype Widget = Widget(fields: seq<string>, focus: Option<nat>)

  /** The keys the keydown handler reacts to; every other key is `OtherKey`. */
  datatype Key = Backspace | ArrowLeft | ArrowRight | OtherKey

  /** A widget after an event, and whether that event submits the form. */
  datatype Effect = Effect(widget: Widget, submit: bool)

  predicate IsSlot(f: string) { |f| == 0 || (|f| == 1 && IsDigit(f[0])) }

  /** Six fields, each empty or one digit; the focus, if any, on one of them. */
  predicate Valid(w: Widget) {
    && |w.fields| == Slots
    && (forall i :: 0 <= i < |w.fields| ==> IsSlot(w.fields[i]))
    && (w.focus.Some? ==> w.focus.value < Slots)
  }

  predicate AllFilled(fields: seq<string>) { forall j :: 0 <= j < |fields| ==> fields[j] != "" }

  /** The fields' values joined in order. */
  function Concat(fields: seq<string>): string {
    if |fields| == 0 then "" else fields[0] + Concat(fields[1..])
  }

  /** `getOTPValue`: the six values concatenated. */
  function Value(w: Widget): string {
    Concat(w.fields)
  }

  const Empty: seq<string> := ["", "", "", "", "", ""]

  /** `setupOTPInput`: six fresh empty fields, none focused. */
  function Setup(): (w: Widget)
    ensures Valid(w) && Value(w) == "" && w.focus.None?
  {
    Widget(Empty, None)
  }

  /** `clearOTPInput`: every field emptied and the first one focused. */
  function Clear(w: Widget): (r: Widget)
    ensures Valid(r) && Value(r) == "" && r.focus == Some(0)
  {
    Widget(Empty, Some(0))
  }

  predicate HasDigit(s: string) { exists j :: 0 <= j < |s| && IsDigit(s[j]) }

  /** `value.slice(-1)` with `value` the digits of the typed text: its last digit, or "". */
  function LastDigit(raw: string): string {
    var d := DigitsOf(raw);
    if |d| == 0 then "" else [d[|d| - 1]]
  }

  lemma {:induction false} DigitsOfAppend(a: string, b: string)
    ensures DigitsOf(a + b) == DigitsOf(a) + DigitsOf(b)
  {
    if |a| > 0 {
      assert (a + b)[1..] == a[1..] + b;
      DigitsOfAppend(a[1..], b);
    } else {
      assert a + b == b;
    }
  }

  lemma {:induction false} DigitsOfEmpty(s: string)
    ensures DigitsOf(s) == "" <==> !HasDigit(s)
  {
    if |s| > 0 {
      DigitsOfEmpty(s[1..]);
      if !IsDigit(s[0]) && HasDigit(s) {
        var j :| 0 <= j < |s| && IsDigit(s[j]);
        assert s[1..][j - 1] == s[j];
      }
    }
  }

  /** The field keeps the last digit of what was typed, or becomes empty if there was none. */
  lemma LastDigitIsLastTyped(raw: string, k: nat)
    requires k < |raw| && IsDigit(raw[k])
    requires forall j :: k < j < |raw| ==> !IsDigit(raw[j])
    ensures LastDigit(raw) == [raw[k]]
  {
    assert raw == raw[..k] + [raw[k]] + raw[k + 1..];
    DigitsOfAppend(raw[..k] + [raw[k]], raw[k + 1..]);
    DigitsOfAppend(raw[..k], [raw[k]]);
    DigitsOfEmpty(raw[k + 1..]);
    assert DigitsOf([raw[k]]) == [raw[k]];
  }

  /** The `input` handler of field `i`, where `raw` is the field's text after typing. */
  function OnInput(w: Widget, i: nat, raw: string): (r: Effect)
    requires Valid(w) && i < Slots
    ensures Valid(r.widget)
    ensures r.widget.fields == w.fields[i := LastDigit(raw)]
    ensures !HasDigit(raw) ==> r.widget.fields[i] == ""
    ensures HasDigit(raw) ==> |r.widget.fields[i]| == 1
    // focus moves on only after a digit, and never past the last field
    ensures r.widget.focus == if HasDigit(raw) && i < Slots - 1 then Some(i + 1) else w.focus
    // the form is submitted from the last field once every field holds a digit
    ensures r.submit <==> i == Slots - 1 && HasDigit(raw) && AllFilled(r.widget.fields)
  {
    DigitsOfEmpty(raw);
    var value := DigitsOf(raw);
    var fields := w.fields[i := LastDigit(raw)];
    var focus := if |value| > 0 && i < Slots - 1 then Some(i + 1) else w.focus;
    var submit := i == Slots - 1 && |value| > 0 && AllFilled(fields);
    Effect(Widget(fields, focus), submit)
  }

  /** The `keydown` handler of field `i`. */
  function OnKeyDown(w: Widget, i: nat, key: Key): (r: Widget)
    requires Valid(w) && i < Slots
    ensures Valid(r)
    ensures key == Backspace && w.fields[i] == "" && i > 0 ==> r == Widget(w.fields[i - 1 := ""], Some(i - 1))
    ensures key == ArrowLeft && i > 0 ==> r == w.(focus := Some(i - 1))
    ensures key == ArrowRight && i < Slots - 1 ==> r == w.(focus := Some(i + 1))
    // nothing else moves the focus or touches a field
    ensures r.fields != w.fields ==> key == Backspace && w.fields[i] == "" && i > 0
    ensures r.focus != w.focus ==>
      || (key == Backspace && w.fields[i] == "" && i > 0)
      || (key == ArrowLeft && i > 0)
      || (key == ArrowRight && i < Slots - 1)
  {
    if key == Backspace && w.fields[i] == "" && i > 0 then Widget(w.fields[i - 1 := ""], Some(i - 1))
    else if key == ArrowLeft && i > 0 then w.(focus := Some(i - 1))
    else if key == ArrowRight && i < Slots - 1 then w.(focus := Some(i + 1))
    else w
  }

  /** The digits a paste contributes: all digits of the clipboard text, at most six. */
  function Pasted(text: string): (p: string)
    ensures AllDigits(p) && |p| <= Slots
  {
    var d := DigitsOf(text);
    if |d| <= Slots then d else d[..Slots]
  }

  /** The `paste` handler (of any field): the pasted digits fill the fields from the first. */
  function OnPaste(w: Widget, text: string): (r: Effect)
    requires Valid(w)
    ensures Valid(r.widget)
    ensures var p := Pasted(text);
      && (forall j :: 0 <= j < |p| ==> r.widget.fields[j] == [p[j]])
      && (forall j :: |p| <= j < Slots ==> r.widget.fields[j] == w.fields[j])
      && r.widget.focus == Some(if |p| < Slots - 1 then |p| else Slots - 1)
      && (r.submit <==> |p| == Slots)
  {
    var p := Pasted(text);
    var fields := seq(Slots, j requires 0 <= j < Slots => if j < |p| then [p[j]] else w.fields[j]);
    Effect(Widget(fields, Some(if |p| < Slots - 1 then |p| else Slots - 1)), |p| >= Slots)
  }

  lemma {:induction false} ConcatAppend(a: seq<string>, b: seq<string>)
    ensures Concat(a + b) == Concat(a) + Concat(b)
  {
    if |a| > 0 {
      assert (a + b)[1..] == a[1..] + b;
      ConcatAppend(a[1..], b);
    } else {
      assert a + b == b;
    }
  }

  lemma {:induction false} ConcatSingles(fields: seq<string>, p: string)
    requires |fields| == |p|
    requires forall j :: 0 <= j < |p| ==> fields[j] == [p[j]]
    ensures Concat(fields) == p
  {
    if |p| > 0 {
      ConcatSingles(fields[1..], p[1..]);
      assert [p[0]] + p[1..] == p;
    }
  }

  /** After a paste the code read back starts with the pasted digits, followed by what the
      later fields already held; six pasted digits are exactly the code. */
  lemma PasteThenValue(w: Widget, text: string)
    requires Valid(w)
    ensures var p := Pasted(text);
      Value(OnPaste(w, text).widget) == p + Concat(w.fields[|p|..])
    ensures |Pasted(text)| == Slots ==> Value(OnPaste(w, text).widget) == Pasted(text)
  {
    var p := Pasted(text);
    var f := OnPaste(w, text).widget.fields;
    assert f == f[..|p|] + f[|p|..];
    assert f[|p|..] == w.fields[|p|..];
    ConcatAppend(f[..|p|], f[|p|..]);
    ConcatSingles(f[..|p|], p);
  }

  lemma {:induction false} ConcatOfSlots(fields: seq<string>)
    requires forall i :: 0 <= i < |fields| ==> IsSlot(fields[i])
    ensures AllDigits(Concat(fields)) && |Concat(fields)| <= |fields|
    ensures |Concat(fields)| == |fields| <==> AllFilled(fields)
  {
    if |fields| > 0 {
      ConcatOfSlots(fields[1..]);
      if !AllFilled(fields[1..]) {
        var j :| 0 <= j < |fields[1..]| && fields[1..][j] == "";
        assert fields[j + 1] == "";
      }
    }
  }

  /** The code of a valid widget is at most six digits, and six exactly when every field is
      filled; so an auto-submit always hands over a complete six-digit code. */
  lemma ValueOfValid(w: Widget)
    requires Valid(w)
    ensures AllDigits(Value(w)) && |Value(w)| <= Slots
    ensures |Value(w)| == Slots <==> AllFilled(w.fields)
  {
    ConcatOfSlots(w.fields);
  }
}

/** The resend button's countdown (`startResendTimer` / `clearResendTimer`). The one-second
    `setTimeout` becomes an explicit tick: `pending` says a tick is scheduled. */
module ResendTimer {
  import opened Text

  datatype Button = Button(caption: string, disabled: bool)

  /** `resendCountdown`, whether `resendTimer` holds a scheduled tick, and the button. */
  datatype Timer = Timer(countdown: int, pending: bool, button: Button)

  const ReadyLabel: string := "Resend code"

  function CountdownLabel(n: nat): string {
    "Resend code (" + NatToString(n) + "s)"
  }

  /** `updateTimer`: show the remaining seconds and schedule a tick, or re-enable the button. */
  function Update(t: Timer): Timer {
    if t.countdown > 0 then
      Timer(t.countdown - 1, true, t.button.(caption := CountdownLabel(t.countdown)))
    else
      Timer(t.countdown, false, Button(ReadyLabel, false))
  }

  /** `clearResendTimer`: the scheduled tick, if any, is cancelled. */
  function Clear(t: Timer): (r: Timer)
    ensures !r.pending && r.countdown == t.countdown && r.button == t.button
  {
    t.(pending := false)
  }

  /** `startResendTimer(button, seconds)`; without the button nothing happens at all. */
  function Start(t: Timer, buttonPresent: bool, seconds: int): (r: Timer)
    ensures !buttonPresent ==> r == t
    ensures buttonPresent && seconds > 0 ==>
      r == Timer(seconds - 1, true, Button(CountdownLabel(seconds), true))
    ensures buttonPresent && seconds <= 0 ==> r == Timer(seconds, false, Button(ReadyLabel, false))
  {
    if !buttonPresent then t
    else Update(Timer(seconds, Clear(t).pending, t.button.(disabled := true)))
  }

  /** The resend button's default countdown length, in seconds. */
  const DefaultSeconds: nat := 30

  /** `startResendTimer(button)` without a length: a thirty-second countdown. */
  function StartDefault(t: Timer, buttonPresent: bool): (r: Timer)
    ensures !buttonPresent ==> r == t
    ensures buttonPresent ==> r == Timer(29, true, Button(CountdownLabel(30), true))
  {
    Start(t, buttonPresent, DefaultSeconds)
  }

  /** The scheduled one-second timeout fires; with nothing scheduled nothing happens. */
  function Tick(t: Timer): Timer {
    if t.pending then Update(t.(pending := false)) else t
  }

  function Ticks(t: Timer, k: nat): Timer {
    if k == 0 then t else Tick(Ticks(t, k - 1))
  }

  /** Started with `n` seconds, after `k < n` ticks the button is disabled and shows `n - k`
      seconds; after `n` ticks it reads "Resend code" and is enabled, with nothing scheduled. */
  lemma {:induction false} Countdown(t: Timer, n: nat, k: nat)
    requires k <= n
    ensures k < n ==> Ticks(Start(t, true, n), k) == Timer(n - k - 1, true, Button(CountdownLabel(n - k), true))
    ensures k == n ==> Ticks(Start(t, true, n), k) == Timer(0, false, Button(ReadyLabel, false))
  {
    if k > 0 {
      Countdown(t, n, k - 1);
    }
  }

  /** Once the countdown has run out, further ticks change nothing. */
  lemma {:induction false} QuietAfterCountdown(t: Timer, n: nat, k: nat)
    requires k >= n
    ensures Ticks(Start(t, true, n), k) == Timer(0, false, Button(ReadyLabel, false))
  {
    if k == n {
      Countdown(t, n, n);
    } else {
      QuietAfterCountdown(t, n, k - 1);
    }
  }

  /** Restarting forgets the earlier countdown: the result depends only on the new length. */
  lemma RestartForgets(t1: Timer, t2: Timer, n: int)
    ensures Start(t1, true, n) == Start(t2, true, n)
  {
  }
}

/** `signIn` and `signUp`: the institutional-domain precheck, the provider call, the
    mapping of the provider's error codes to messages, and the local session flag.
    The provider's answers are parameters. */
module AuthService {
  import opened Text
  import LoginForm

  const Domain: string := "@krmu.edu.in"
  const SessionKey: string := "krmu_session"

  /** `localStorage`, as a map from key to stored string. */
  type Storage = map<string, string>

  /** What a provider call did: resolve, or reject with an error code. */
  datatype Outcome = Succeeded | Failed(code: string)

  datatype AuthResult = Success | Failure(message: string)

  /** The result, the storage after the call, and whether the provider was asked at all. */
  datatype Reply = Reply(result: AuthResult, storage: Storage, providerCalled: bool)

  const DomainMessage: string := "Please use your @krmu.edu.in email address"
  const UnavailableMessage: string := "Authentication service not available"

  /** The sign-in error message for a provider error code. */
  function SignInMessage(code: string): (m: string)
    ensures code == "auth/user-not-found" ==> m == "No account found with this email"
    ensures code == "auth/wrong-password" ==> m == "Incorrect password"
    ensures code == "auth/invalid-email" ==> m == "Invalid email address"
    ensures code == "auth/too-many-requests" ==> m == "Too many failed attempts. Try again later"
    ensures code !in {"auth/user-not-found", "auth/wrong-password", "auth/invalid-email", "auth/too-many-requests"}
      ==> m == "Sign in failed. Please try again."
  {
    if code == "auth/too-many-requests" then "Too many failed attempts. Try again later"
    else if code == "auth/invalid-email" then "Invalid email address"
    else if code == "auth/wrong-password" then "Incorrect password"
    else if code == "auth/user-not-found" then "No account found with this email"
    else "Sign in failed. Please try again."
  }

  /** The sign-up error message for a provider error code. */
  function SignUpMessage(code: string): (m: string)
    ensures code == "auth/email-already-in-use" ==> m == "An account with this email already exists"
    ensures code == "auth/invalid-email" ==> m == "Invalid email address"
    ensures code == "auth/weak-password" ==> m == "Password should be at least 8 characters"
    ensures code !in {"auth/email-already-in-use", "auth/invalid-email", "auth/weak-password"}
      ==> m == "Sign up failed. Please try again."
  {
    if code == "auth/weak-password" then "Password should be at least 8 characters"
    else if code == "auth/invalid-email" then "Invalid email address"
    else if code == "auth/email-already-in-use" then "An account with this email already exists"
    else "Sign up failed. Please try again."
  }

  /** `signIn(email, password)`; `sdkLoaded` says whether the provider SDK is present and
      `outcome` is its answer to the credentials. */
  function SignIn(email: string, sdkLoaded: bool, outcome: Outcome, storage: Storage): (r: Reply)
    ensures !EndsWith(email, Domain) ==> r == Reply(Failure(DomainMessage), storage, false)
    ensures EndsWith(email, Domain) && !sdkLoaded ==> r == Reply(Failure(UnavailableMessage), storage, false)
    ensures r.providerCalled <==> EndsWith(email, Domain) && sdkLoaded
    ensures r.result.Success? <==> r.providerCalled && outcome.Succeeded?
    ensures r.result.Success? ==> r.storage == storage[SessionKey := "true"]
    ensures r.result.Failure? ==> r.storage == storage
    ensures r.providerCalled && outcome.Failed? ==> r.result == Failure(SignInMessage(outcome.code))
  {
    if !EndsWith(email, Domain) then Reply(Failure(DomainMessage), storage, false)
    else if !sdkLoaded then Reply(Failure(UnavailableMessage), storage, false)
    else
      match outcome
      case Succeeded => Reply(Success, storage[SessionKey := "true"], true)
      case Failed(code) => Reply(Failure(SignInMessage(code)), storage, true)
  }

  /** `signUp(email, password, displayName)`: account creation, then, for a non-empty
      display name, the profile update; a rejection of either is mapped to a message. */
  function SignUp(email: string, displayName: string, sdkLoaded: bool, created: Outcome,
                  profile: Outcome, storage: Storage): (r: Reply)
    ensures !EndsWith(email, Domain) ==> r == Reply(Failure(DomainMessage), storage, false)
    ensures EndsWith(email, Domain) && !sdkLoaded ==> r == Reply(Failure(UnavailableMessage), storage, false)
    ensures r.providerCalled <==> EndsWith(email, Domain) && sdkLoaded
    ensures r.result.Success? <==>
      r.providerCalled && created.Succeeded? && (displayName == "" || profile.Succeeded?)
    ensures r.result.Success? ==> r.storage == storage[SessionKey := "true"]
    ensures r.result.Failure? ==> r.storage == storage
    ensures r.providerCalled && created.Failed? ==> r.result == Failure(SignUpMessage(created.code))
    ensures r.providerCalled && created.Succeeded? && displayName != "" && profile.Failed? ==>
      r.result == Failure(SignUpMessage(profile.code))
  {
    if !EndsWith(email, Domain) then Reply(Failure(DomainMessage), storage, false)
    else if !sdkLoaded then Reply(Failure(UnavailableMessage), storage, false)
    else
      match created
      case Failed(code) => Reply(Failure(SignUpMessage(code)), storage, true)
      case Succeeded =>
        if displayName != "" && profile.Failed? then Reply(Failure(SignUpMessage(profile.code)), storage, true)
        else Reply(Success, storage[SessionKey := "true"], true)
  }

  /** The password-reset error message for a provider error code. */
  function ResetMessage(code: string): (m: string)
    ensures code == "auth/user-not-found" ==> m == "No account found with this email"
    ensures code == "auth/invalid-email" ==> m == "Invalid email address"
    ensures code !in {"auth/user-not-found", "auth/invalid-email"} ==> m == "Failed to send reset email. Please try again."
  {
    if code == "auth/invalid-email" then "Invalid email address"
    else if code == "auth/user-not-found" then "No account found with this email"
    else "Failed to send reset email. Please try again."
  }

  /** `sendPasswordReset(email)`: only the SDK check comes before the provider call, and the
      local session flag is never touched. `outcome` is the provider's answer. */
  function SendPasswordReset(email: string, sdkLoaded: bool, outcome: Outcome, storage: Storage): (r: Reply)
    ensures !sdkLoaded ==> r == Reply(Failure(UnavailableMessage), storage, false)
    ensures r.providerCalled <==> sdkLoaded
    ensures r.result.Success? <==> r.providerCalled && outcome.Succeeded?
    ensures r.storage == storage
    ensures r.providerCalled && outcome.Failed? ==> r.result == Failure(ResetMessage(outcome.code))
  {
    if !sdkLoaded then Reply(Failure(UnavailableMessage), storage, false)
    else
      match outcome
      case Succeeded => Reply(Success, storage, true)
      case Failed(code) => Reply(Failure(ResetMessage(code)), storage, true)
  }

  /** A reset has no domain precheck: an address sign-in refuses outright still reaches the
      provider when asked for a reset. */
  lemma ResetSkipsDomainCheck(email: string, outcome: Outcome, storage: Storage)
    requires !EndsWith(email, Domain)
    ensures !SignIn(email, true, outcome, storage).providerCalled
    ensures SendPasswordReset(email, true, outcome, storage).providerCalled
  {
  }

  /** The three flows word the provider's errors alike where they share a code, and no
      provider error reads like one of the two prechecks, so the messages tell a caller
      whether the provider was asked. */
  lemma MessagesAgreeAcrossFlows(code: string)
    ensures SignInMessage("auth/invalid-email") == SignUpMessage("auth/invalid-email") == ResetMessage("auth/invalid-email")
    ensures SignInMessage("auth/user-not-found") == ResetMessage("auth/user-not-found")
    ensures SignInMessage(code) !in {DomainMessage, UnavailableMessage}
    ensures SignUpMessage(code) !in {DomainMessage, UnavailableMessage}
    ensures ResetMessage(code) !in {DomainMessage, UnavailableMessage}
  {
  }

  /** Credentials the sign-in form accepts always pass the domain precheck, so with the SDK
      loaded the provider is asked, and the outcome alone decides the result. */
  lemma FormCredentialsReachProvider(rollInput: string, password: string, outcome: Outcome, storage: Storage)
    requires LoginForm.Validate(rollInput, password).Credentials?
    ensures var r := SignIn(LoginForm.Validate(rollInput, password).email, true, outcome, storage);
      r.providerCalled && (r.result.Success? <==> outcome.Succeeded?)
  {
    LoginForm.CredentialsRoundTrip(rollInput, password);
  }
}

=== FILE: generate_config.dfy ===
/** The build step that reads a `.env` file into the process environment and writes the
    public Firebase settings the browser reads. */
module EnvConfig {
  import opened Wrappers
  import opened Text

  /** The process environment: variable name to value. */
  type Env = map<string, string>

  /** `ENV_KEYS`: the variables exported to the browser, in order. */
  const EnvKeys: seq<string> := [
    "NEXT_PUBLIC_FIREBASE_API_KEY",
    "NEXT_PUBLIC_FIREBASE_AUTH_DOMAIN",
    "NEXT_PUBLIC_FIREBASE_PROJECT_ID",
    "NEXT_PUBLIC_FIREBASE_STORAGE_BUCKET",
    "NEXT_PUBLIC_FIREBASE_MESSAGING_SENDER_ID",
    "NEXT_PUBLIC_FIREBASE_APP_ID",
    "NEXT_PUBLIC_FIREBASE_MEASUREMENT_ID"
  ]

  /** The characters a regular expression's `.` does not match, and before which `$`
      (without the multiline flag) does not hold. */
  predicate IsLineTerminator(c: char) {
    c == '\n' || c == '\r' || c == '\U{2028}' || c == '\U{2029}'
  }

  predicate NoLineTerminator(s: string) {
    forall i :: 0 <= i < |s| ==> !IsLineTerminator(s[i])
  }

  /** The position of the first `c` in `s`, or `|s|` when there is none. */
  function IndexOf(s: string, c: char): (r: nat)
    ensures r <= |s|
    ensures r < |s| ==> s[r] == c
    ensures forall j :: 0 <= j < r ==> s[j] != c
  {
    if |s| == 0 then 0
    else if s[0] == c then 0
    else 1 + IndexOf(s[1..], c)
  }

  /** The trimmed halves around position `p` when `p` splits `line` as the pattern does. */
  function SplitAt(line: string, p: nat): Option<(string, string)> {
    if 0 < p < |line| && NoLineTerminator(line[p + 1..]) then Some((Trim(line[..p]), Trim(line[p + 1..]))) else None
  }

  /** `line.match(/^([^=]+)=(.*)$/)` followed by trimming both groups. The first group stops
      at the first `=` and must be non-empty; the second must run to the end of the line
      without a line terminator. */
  function ParseLineAsWritten(line: string): (r: Option<(string, string)>)
    ensures r.Some? <==> 0 < IndexOf(line, '=') < |line| && NoLineTerminator(line[IndexOf(line, '=') + 1..])
    ensures r.Some? ==> var p := IndexOf(line, '=');
      r.value == (Trim(line[..p]), Trim(line[p + 1..]))
  {
    SplitAt(line, IndexOf(line, '='))
  }

  /** The line without one trailing carriage return, as a line of a CRLF file ends. */
  function StripCr(line: string): (r: string)
    ensures r == line || (line == r + "\r")
    ensures '\r' !in line ==> r == line
  {
    if |line| > 0 && line[|line| - 1] == '\r' then line[..|line| - 1] else line
  }

  /** The line reader with the carriage return of a CRLF line ending removed first. */
  function ParseLine(line: string): (r: Option<(string, string)>)
    ensures '\r' !in line ==> r == ParseLineAsWritten(line)
    ensures r == ParseLineAsWritten(StripCr(line))
  {
    ParseLineAsWritten(StripCr(line))
  }

  /** `process.env[key] || ''`. */
  function Get(env: Env, key: string): string {
    if key in env then env[key] else ""
  }

  /** One parsed line: the variable is set unless it already holds a non-empty value. */
  function Assign(env: Env, parsed: Option<(string, string)>): (r: Env)
    ensures parsed.None? ==> r == env
    ensures parsed.Some? && Get(env, parsed.value.0) == "" ==> r == env[parsed.value.0 := parsed.value.1]
    ensures parsed.Some? && Get(env, parsed.value.0) != "" ==> r == env
  {
    match parsed
    case None => env
    case Some(kv) => if Get(env, kv.0) == "" then env[kv.0 := kv.1] else env
  }

  /** The lines of the file applied in order, read with `parse`. */
  function LoadLines(env: Env, lines: seq<string>, parse: string -> Option<(string, string)>): Env
    decreases |lines|
  {
    if |lines| == 0 then env else LoadLines(Assign(env, parse(lines[0])), lines[1..], parse)
  }

  /** Reading `.env`, if the file exists: its text split at `\n`. */
  function Load(env: Env, file: Option<string>, parse: string -> Option<(string, string)>): Env {
    match file
    case None => env
    case Some(text) => LoadLines(env, Split(text, '\n'), parse)
  }

  /** The reference reading: the first non-empty value a line gives `key`, or "". */
  function FirstValue(lines: seq<string>, parse: string -> Option<(string, string)>, key: string): string {
    if |lines| == 0 then ""
    else
      var p := parse(lines[0]);
      if p.Some? && p.value.0 == key && p.value.1 != "" then p.value.1
      else FirstValue(lines[1..], parse, key)
  }

  /** After loading, a variable keeps a non-empty value it already had; otherwise it holds
      the first non-empty value the file gives it, or nothing usable. */
  lemma {:induction false} LoadLinesValue(env: Env, lines: seq<string>, parse: string -> Option<(string, string)>, key: string)
    ensures Get(LoadLines(env, lines, parse), key)
      == if Get(env, key) != "" then Get(env, key) else FirstValue(lines, parse, key)
    decreases |lines|
  {
    if |lines| > 0 {
      LoadLinesValue(Assign(env, parse(lines[0])), lines[1..], parse, key);
    }
  }

  /** `config`: each exported key with its value, "" when unset or empty. */
  function Config(env: Env): (r: seq<(string, string)>)
    ensures |r| == |EnvKeys|
    ensures forall i :: 0 <= i < |EnvKeys| ==> r[i].0 == EnvKeys[i]
    ensures forall i :: 0 <= i < |EnvKeys| ==> (r[i].1 != "" <==> EnvKeys[i] in env && env[EnvKeys[i]] != "")
  {
    seq(|EnvKeys|, i requires 0 <= i < |EnvKeys| => (EnvKeys[i], Get(env, EnvKeys[i])))
  }

  /** The generated settings: an exported key's value is the environment's non-empty value
      if there was one, otherwise the first non-empty value in the `.env` file. */
  lemma ConfigValue(env: Env, text: string, parse: string -> Option<(string, string)>, i: nat)
    requires i < |EnvKeys|
    ensures Config(Load(env, Some(text), parse))[i].1
      == if Get(env, EnvKeys[i]) != "" then Get(env, EnvKeys[i]) else FirstValue(Split(text, '\n'), parse, EnvKeys[i])
  {
    LoadLinesValue(env, Split(text, '\n'), parse, EnvKeys[i]);
  }

  /** A `KEY=value` line with a key free of `=` and a value on one line reads back as the
      trimmed key and value. */
  lemma LineRoundTrip(key: string, value: string)
    requires |key| > 0 && '=' !in key
    requires NoLineTerminator(value)
    ensures ParseLineAsWritten(key + "=" + value) == Some((Trim(key), Trim(value)))
    ensures ParseLine(key + "=" + value) == Some((Trim(key), Trim(value)))
  {
    var line := key + "=" + value;
    assert line[|key|] == '=';
    assert IndexOf(line, '=') == |key| by {
      forall j | 0 <= j < |key| ensures line[j] != '=' {
        assert line[j] == key[j];
      }
    }
    assert line[..|key|] == key;
    assert line[|key| + 1..] == value;
    assert StripCr(line) == line by {
      if |value| > 0 {
        assert line[|line| - 1] == value[|value| - 1];
      }
    }
  }

  /** As written, a line ending in a carriage return is never read, whatever it holds. */
  lemma CrLineIgnored(line: string)
    ensures ParseLineAsWritten(line + "\r") == None
  {
    var s := line + "\r";
    var p := IndexOf(s, '=');
    if 0 < p < |s| {
      assert s[p + 1..][|s| - p - 2] == '\r';
    }
  }

  /** The lines of a file with CRLF line endings. */
  function CrLines(lines: seq<string>): (r: seq<string>)
    ensures |r| == |lines|
    ensures forall i :: 0 <= i < |lines| ==> r[i] == lines[i] + "\r"
  {
    seq(|lines|, i requires 0 <= i < |lines| => lines[i] + "\r")
  }

  /** As written, the lines of a CRLF file set no variable at all. */
  lemma {:induction false} CrLinesIgnored(env: Env, lines: seq<string>)
    ensures LoadLines(env, CrLines(lines), ParseLineAsWritten) == env
    decreases |lines|
  {
    if |lines| > 0 {
      CrLineIgnored(lines[0]);
      assert CrLines(lines)[1..] == CrLines(lines[1..]);
      CrLinesIgnored(env, lines[1..]);
    }
  }

  /** With the carriage return stripped, each CRLF line reads like the same line without it. */
  lemma {:induction false} CrLinesReadAlike(env: Env, lines: seq<string>)
    requires forall i :: 0 <= i < |lines| ==> '\r' !in lines[i]
    ensures LoadLines(env, CrLines(lines), ParseLine) == LoadLines(env, lines, ParseLineAsWritten)
    decreases |lines|
  {
    if |lines| > 0 {
      assert StripCr(lines[0] + "\r") == lines[0];
      assert CrLines(lines)[1..] == CrLines(lines[1..]);
      CrLinesReadAlike(Assign(env, ParseLineAsWritten(lines[0])), lines[1..]);
    }
  }

  /** The text of a file holding `lines`, each ended by `\n` except that the last one
      ends the file unless `finalNewline` is set. */
  function FileText(lines: seq<string>, finalNewline: bool): string {
    Join(lines, '\n') + (if finalNewline then "\n" else "")
  }

  /** Splitting a file's text gives back its lines, and one empty line after a final
      line break. */
  lemma SplitFileText(lines: seq<string>, finalNewline: bool)
    requires |lines| >= 1
    requires forall i :: 0 <= i < |lines| ==> '\n' !in lines[i]
    ensures Split(FileText(lines, finalNewline), '\n') == lines + (if finalNewline then [""] else [])
  {
    if finalNewline {
      JoinEmptyLast(lines, '\n');
      SplitJoin(lines + [""], '\n');
    } else {
      assert lines + [] == lines;
      assert FileText(lines, false) == Join(lines, '\n');
      SplitJoin(lines, '\n');
    }
  }

  /** Loading lines one after the other is loading the first ones, then the rest. */
  lemma {:induction false} LoadLinesAppend(env: Env, xs: seq<string>, ys: seq<string>,
                                           parse: string -> Option<(string, string)>)
    ensures LoadLines(env, xs + ys, parse) == LoadLines(LoadLines(env, xs, parse), ys, parse)
    decreases |xs|
  {
    if |xs| > 0 {
      assert (xs + ys)[1..] == xs[1..] + ys;
      LoadLinesAppend(Assign(env, parse(xs[0])), xs[1..], ys, parse);
    } else {
      assert xs + ys == ys;
    }
  }

  /** The empty line after a final line break sets nothing, with either reader. */
  lemma EmptyLastLineIgnored(env: Env, lines: seq<string>, parse: string -> Option<(string, string)>)
    requires parse("") == None
    ensures LoadLines(env, lines + [""], parse) == LoadLines(env, lines, parse)
  {
    LoadLinesAppend(env, lines, [""], parse);
    assert [""][1..] == [];
  }

  /** As written, loading a CRLF file sets no variable at all, whether or not its last line
      ends in a line break. */
  lemma CrlfFileIgnored(env: Env, lines: seq<string>, finalNewline: bool)
    requires |lines| >= 1
    requires forall i :: 0 <= i < |lines| ==> '\n' !in lines[i]
    ensures Load(env, Some(FileText(CrLines(lines), finalNewline)), ParseLineAsWritten) == env
  {
    var cr := CrLines(lines);
    assert forall i :: 0 <= i < |cr| ==> '\n' !in cr[i] by {
      forall i | 0 <= i < |cr| ensures '\n' !in cr[i] {
        assert cr[i] == lines[i] + "\r";
      }
    }
    SplitFileText(cr, finalNewline);
    CrLinesIgnored(env, lines);
    if finalNewline {
      assert ParseLineAsWritten("") == None;
      EmptyLastLineIgnored(env, cr, ParseLineAsWritten);
    } else {
      assert cr + [] == cr;
    }
  }

  /** The usual CRLF file, two settings each ended by CR LF, sets nothing as written. */
  lemma CrlfExampleIgnored(env: Env)
    ensures Load(env, Some("A=1\r\nB=2\r\n"), ParseLineAsWritten) == env
  {
    var lines := ["A=1", "B=2"];
    var cr := CrLines(lines);
    assert cr[0] == "A=1" + "\r" && cr[1] == "B=2" + "\r";
    assert "A=1" + "\r" == "A=1\r" && "B=2" + "\r" == "B=2\r";
    assert |cr| == 2;
    assert cr == ["A=1\r", "B=2\r"];
    assert Join(["A=1\r", "B=2\r"], '\n') == "A=1\r" + "\n" + "B=2\r";
    assert FileText(CrLines(lines), true) == "A=1\r\nB=2\r\n";
    CrlfFileIgnored(env, lines, true);
  }

  /** The corrected reader loads a CRLF file as the reader as written loads the same file
      with LF line endings, whether or not its last line ends in a line break. */
  lemma CrlfFileLoadsLikeLf(env: Env, lines: seq<string>, finalNewline: bool)
    requires |lines| >= 1
    requires forall i :: 0 <= i < |lines| ==> '\r' !in lines[i] && '\n' !in lines[i]
    ensures Load(env, Some(FileText(CrLines(lines), finalNewline)), ParseLine)
         == Load(env, Some(FileText(lines, finalNewline)), ParseLineAsWritten)
  {
    var cr := CrLines(lines);
    assert forall i :: 0 <= i < |cr| ==> '\n' !in cr[i] by {
      forall i | 0 <= i < |cr| ensures '\n' !in cr[i] {
        assert cr[i] == lines[i] + "\r";
      }
    }
    SplitFileText(cr, finalNewline);
    SplitFileText(lines, finalNewline);
    CrLinesReadAlike(env, lines);
    if finalNewline {
      assert ParseLine("") == None && ParseLineAsWritten("") == None;
      EmptyLastLineIgnored(env, cr, ParseLine);
      EmptyLastLineIgnored(env, lines, ParseLineAsWritten);
    } else {
      assert cr + [] == cr && lines + [] == lines;
    }
  }
}

=== FILE: script.dfy ===
/** The flashcard quiz's question bank: for each question its options and the index
    of the correct one. Question and explanation texts are display-only and omitted. */
module QuizData {

  datatype Question = Question(options: seq<string>, ans: int)

  const Questions: seq<Question> := [
    Question(["The world is becoming suitable for grandchildren", "Climate change is stopped", "People are living in peace"], 0),
    Question(["They are against it", "Their status is controversial/Not recognized by UN", "They don't want to join"], 1),
    Question(["Global energy transformation", "Eradicate poverty worldwide", "Education for all"], 1),
    Question(["All countries", "Rich countries", "Poor countries"], 0),
    Question(["9", "17", "23"], 1),
    Question(["Love, peace, joy", "Stock market, banks, companies", "Society, economy, environment"], 2),
    Question(["2015", "2030", "2050"], 1),
    Question(["Buy new clothes every season", "Repair appliances that no longer work", "Throw away unused things"], 1),
    Question(["Decent work and economic growth", "Profit maximization and cheap labor", "Industry, innovation and infrastructure"], 1),
    Question(["Meeting present needs without compromising future", "Conserving resources", "Eco-friendly models", "All of the above"], 3),
    Question(["Equitable", "Bearable", "Viable", "None"], 0),
    Question(["True", "False"], 0),
    Question(["Family planning", "Balance of arable land", "Catastrophic transformation of environment"], 2),
    Question(["End of poverty", "Gender equality", "Sustainable economic growth", "All of the above"], 3),
    Question(["1987", "1980", "1992"], 1),
    Question(["1992", "1993", "1995"], 0),
    Question(["UN Disarmament Commission", "UN Statistical Commission", "UN CSD"], 2),
    Question(["Understand the concept", "Point out problems", "Take policy measures", "All of the above"], 3),
    Question(["Carrying capacity", "Inter-generation equity", "Gender disparity", "All of the above"], 3),
    Question(["Profit, product, people", "Economic, environmental, social factors", "Business, government, community"], 1)
  ]

  /** The number of questions, `QUIZ_DATA.length`. */
  const Count: nat := |Questions|

  /** The correct answer indexes an existing option. */
  predicate WellFormed(q: Question) { 0 <= q.ans < |q.options| }

  /** Every question of the bank is well formed, and there are twenty of them. */
  lemma BankWellFormed()
    ensures Count == 20
    ensures forall i :: 0 <= i < Count ==> WellFormed(Questions[i])
  {
  }

  /** The text shown on the card's back: `"Correct Answer: " + q.options[q.ans]`. */
  function CorrectAnswerLabel(i: nat): (r: string)
    requires i < Count
    ensures 0 <= Questions[i].ans < |Questions[i].options|
    ensures r == "Correct Answer: " + Questions[i].options[Questions[i].ans]
  {
    BankWellFormed();
    "Correct Answer: " + Questions[i].options[Questions[i].ans]
  }
}

/** The flashcard quiz as a state machine over the module-level variables
    `currentQuestionIndex`, `currentScore`, `currentUserRoll` and `isLocked`.
    Each user action is a function from the session before to the session after. */
module Quiz {
  import opened Text
  import opened QuizData

  /** The value `selectedIndex` takes when the skip button is pressed. */
  const Skip: int := -1

  datatype Session = Session(roll: string, index: nat, score: int, locked: bool)

  /** The record `finishQuiz` pushes to `submissions`. */
  datatype Submission = Submission(roll: string, score: int, total: int, dept: string,
                                   pledge: string, volunteer: string, timestamp: string)

  /** The next button's effect: load the following question, or finish. */
  datatype Step = Continue(session: Session) | Finished(record: Submission)

  /** The module-level variables as the page loads them: no roll, question 0, score 0. */
  const PageLoad: Session := Session("", 0, 0, false)

  /** `initQuiz(roll)`: records the roll number and loads question 0. The score is left as
      it is: only loading the page zeroes it, so a second call keeps the earlier score. */
  function Start(prev: Session, roll: string): (s: Session)
    ensures s.index == 0 && !s.locked && s.roll == roll
    ensures s.score == prev.score
    ensures prev == PageLoad ==> s.score == 0
  {
    Load(prev.(roll := roll), 0)
  }

  /** `loadQuestion(i)`: shows question `i` and releases the lock. */
  function Load(s: Session, i: nat): (r: Session)
    requires i < Count
    ensures r.index == i && !r.locked
    ensures r.score == s.score && r.roll == s.roll
  {
    s.(index := i, locked := false)
  }

  /** The score change for one answer: 0 for a skip, +5 for the correct option, -1 otherwise. */
  function Delta(selected: int, correct: int): int {
    if selected == Skip then 0 else if selected == correct then 5 else -1
  }

  /** `handleAnswer(selected, index)`: ignored while locked; otherwise locks and scores. */
  function Answer(s: Session, selected: int): (r: Session)
    requires s.index < Count
    ensures s.locked ==> r == s
    ensures !s.locked ==> r.locked && r.index == s.index && r.roll == s.roll
    ensures !s.locked ==>
      && (selected == Skip ==> r.score == s.score)
      && (selected != Skip && selected == Questions[s.index].ans ==> r.score == s.score + 5)
      && (selected != Skip && selected != Questions[s.index].ans ==> r.score == s.score - 1)
  {
    if s.locked then s
    else s.(locked := true, score := s.score + Delta(selected, Questions[s.index].ans))
  }

  /** A second answer to the same question changes nothing: each question is scored once. */
  lemma AnswerOnce(s: Session, first: int, second: int)
    requires s.index < Count
    ensures Answer(Answer(s, first), second) == Answer(s, first)
  {
  }

  /** `finishQuiz`: the submission record built from the session. */
  function Finish(s: Session, timestamp: string): (r: Submission)
    ensures r.total == 5 * Count && r.total == 100
    ensures r.score == s.score && r.roll == s.roll && r.timestamp == timestamp
    ensures r.dept == "Flashcard" && r.volunteer == "Yes"
    ensures |r.pledge| > 13 && r.pledge[..13] == "Final Score: "
    ensures IsIntString(r.pledge[13..]) && ParseInt(r.pledge[13..]) == r.score
  {
    BankWellFormed();
    var pledge := "Final Score: " + IntToString(s.score);
    assert pledge[13..] == IntToString(s.score);
    ParseIntToString(s.score);
    Submission(s.roll, s.score, Count * 5, "Flashcard", pledge, "Yes", timestamp)
  }

  /** The next button: from question `i < Count - 1` load `i + 1`, from the last finish. */
  function Next(s: Session, timestamp: string): (r: Step)
    requires s.index < Count
    ensures s.index < Count - 1 ==> r == Continue(Load(s, s.index + 1))
    ensures s.index == Count - 1 ==> r == Finished(Finish(s, timestamp))
  {
    if s.index < Count - 1 then Continue(Load(s, s.index + 1)) else Finished(Finish(s, timestamp))
  }

  /** Answering the loaded question and pressing next, once per answer, until the answers
      run out or the last question has been answered. */
  function Play(s: Session, answers: seq<int>): Session
    requires s.index < Count
    requires s.index + |answers| <= Count
    decreases |answers|
  {
    if |answers| == 0 then s
    else
      var a := Answer(s, answers[0]);
      match Next(a, "")
      case Continue(s') => Play(s', answers[1..])
      case Finished(_) => a
  }

  /** The reference score: the sum of the per-question deltas for answers given to the
      questions `from`, `from + 1`, ... */
  function SumDeltas(from: nat, answers: seq<int>): int
    requires from + |answers| <= Count
    decreases |answers|
  {
    if |answers| == 0 then 0
    else Delta(answers[0], Questions[from].ans) + SumDeltas(from + 1, answers[1..])
  }

  /** Playing from an unlocked question adds exactly the sum of the deltas. */
  lemma {:induction false} PlayAddsDeltas(s: Session, answers: seq<int>)
    requires s.index < Count && s.index + |answers| <= Count
    requires !s.locked
    ensures Play(s, answers).score == s.score + SumDeltas(s.index, answers)
    ensures Play(s, answers).roll == s.roll
    decreases |answers|
  {
    if |answers| > 0 {
      var a := Answer(s, answers[0]);
      if s.index < Count - 1 {
        PlayAddsDeltas(Load(a, s.index + 1), answers[1..]);
      }
    }
  }

  /** Each answered question moves the score by -1, 0 or +5, so k answers stay in [-k, 5k]. */
  lemma {:induction false} SumDeltasBounds(from: nat, answers: seq<int>)
    requires from + |answers| <= Count
    ensures -|answers| <= SumDeltas(from, answers) <= 5 * |answers|
    decreases |answers|
  {
    if |answers| > 0 {
      SumDeltasBounds(from + 1, answers[1..]);
    }
  }

  /** Answering every question correctly scores 5 per question. */
  lemma {:induction false} AllCorrectScoresFive(from: nat, answers: seq<int>)
    requires from + |answers| <= Count
    requires forall i :: 0 <= i < |answers| ==> answers[i] == Questions[from + i].ans
    ensures SumDeltas(from, answers) == 5 * |answers|
    decreases |answers|
  {
    if |answers| > 0 {
      BankWellFormed();
      AllCorrectScoresFive(from + 1, answers[1..]);
    }
  }

  /** Skipping every question scores 0. */
  lemma {:induction false} AllSkippedScoresZero(from: nat, answers: seq<int>)
    requires from + |answers| <= Count
    requires forall i :: 0 <= i < |answers| ==> answers[i] == Skip
    ensures SumDeltas(from, answers) == 0
    decreases |answers|
  {
    if |answers| > 0 {
      AllSkippedScoresZero(from + 1, answers[1..]);
    }
  }

  /** A whole quiz from the session `prev`: start, answer all twenty questions, finish. The
      submitted score is the score carried over plus the sum of the deltas; the first quiz
      after the page loads therefore submits a score in [-20, 100]. */
  function Run(prev: Session, roll: string, answers: seq<int>, timestamp: string): (r: Submission)
    requires |answers| == Count
    ensures r.score == prev.score + SumDeltas(0, answers)
    ensures prev.score - Count <= r.score <= prev.score + 5 * Count && r.total == 100
    ensures prev == PageLoad ==> -(Count as int) <= r.score <= 5 * Count
    ensures r.roll == roll
  {
    PlayAddsDeltas(Start(prev, roll), answers);
    SumDeltasBounds(0, answers);
    Finish(Play(Start(prev, roll), answers), timestamp)
  }
}

/** The sign-in form's client-side validation in `setupAuthPage`: the roll number is
    trimmed and must be 5 to 15 ASCII letters or digits, the password at least 6
    UTF-16 code units long; the account address is the roll number at the institution's
    domain. */
module LoginForm {
  import opened Text

  const Domain: string := "@krmu.edu.in"

  datatype Validation = InvalidRoll | ShortPassword | Credentials(email: string, password: string) {
    /** The alert shown for a rejected form. */
    function Alert(): string
      requires !Credentials?
    {
      if InvalidRoll? then "Invalid roll number format. Use 5-15 alphanumeric characters only."
      else "Password must be at least 6 characters."
    }
  }

  /** `/^[a-zA-Z0-9]{5,15}$/`. */
  predicate IsRollNumber(s: string) {
    5 <= |s| <= 15 && forall i :: 0 <= i < |s| ==> IsAsciiAlnum(s[i])
  }

  /** The submit handler's checks, in order, and the address it signs in with. */
  function Validate(rollInput: string, password: string): (r: Validation)
    ensures r.InvalidRoll? <==> !IsRollNumber(Trim(rollInput))
    // the password's length is JavaScript's, in UTF-16 code units
    ensures r.ShortPassword? <==> IsRollNumber(Trim(rollInput)) && Utf16Length(password) < 6
    ensures r.Credentials? ==> r.email == Trim(rollInput) + Domain && r.password == password
  {
    var roll := Trim(rollInput);
    if !IsRollNumber(roll) then InvalidRoll
    else if Utf16Length(password) < 6 then ShortPassword
    else Credentials(roll + Domain, password)
  }

  /** Three characters outside the Basic Multilingual Plane are six code units: such a
      password is long enough, although it has only three characters; two are too short. */
  lemma AstralPasswordIsLongEnough(rollInput: string)
    requires IsRollNumber(Trim(rollInput))
    ensures Validate(rollInput, "\U{1F600}\U{1F600}\U{1F600}").Credentials?
    ensures Validate(rollInput, "\U{1F600}\U{1F600}").ShortPassword?
  {
    Utf16LengthOfAstral("\U{1F600}\U{1F600}\U{1F600}");
    Utf16LengthOfAstral("\U{1F600}\U{1F600}");
  }

  /** The roll number part of an institutional address. */
  function RollOf(email: string): string
    requires EndsWith(email, Domain)
  {
    email[..|email| - |Domain|]
  }

  /** Accepted credentials carry an institutional address whose roll part is the trimmed
      input, so the roll number can be read back from the address. */
  lemma CredentialsRoundTrip(rollInput: string, password: string)
    requires Validate(rollInput, password).Credentials?
    ensures var e := Validate(rollInput, password).email;
      EndsWith(e, Domain) && RollOf(e) == Trim(rollInput) && IsRollNumber(RollOf(e))
  {
    EndsWithAppend(Trim(rollInput), Domain);
  }

  /** An accepted address is already lower-case at its domain, so it also passes the
      server's suffix rule, which lower-cases before testing. */
  lemma CredentialsPassServerSuffixRule(rollInput: string, password: string)
    requires Validate(rollInput, password).Credentials?
    ensures EndsWith(Lower(Validate(rollInput, password).email), Domain)
  {
    var roll := Trim(rollInput);
    assert Validate(rollInput, password).email == roll + Domain;
    LowerAppend(roll, Domain);
    DomainIsLower();
    EndsWithAppend(Lower(roll), Domain);
  }

  /** The institutional domain has no upper-case letter. */
  lemma DomainIsLower()
    ensures Lower(Domain) == Domain
  {
    assert Domain == ['@', 'k', 'r', 'm', 'u', '.', 'e', 'd', 'u', '.', 'i', 'n'];
    LowerOfLower(Domain);
  }
}

=== FILE: send_link.dfy ===
/** The per-address limiter of the sign-in-link endpoint: a fixed-window counter
    keyed by the lower-cased address, allowing `MaxRequests` requests per window
    of `WindowMs` with at least `MinIntervalMs` between allowed requests.
    The in-memory `Map` becomes a `Store` value and `Date.now()` a parameter. */
module RateLimit {
  import opened Text

  const WindowMs: int := 60 * 60 * 1000
  const MaxRequests: int := 5
  const MinIntervalMs: int := 30 * 1000

  /** The record `{ count, firstRequest, lastRequest }`; times in milliseconds. */
  datatype Entry = Entry(count: int, firstRequest: int, lastRequest: int)

  type Store = map<string, Entry>

  datatype Verdict = Allowed | Wait(seconds: int) | TooMany {

    /** The `message` a refusal carries. */
    function Message(): string
      requires !Allowed?
    {
      if Wait? then "Please wait " + IntToString(seconds) + " seconds before requesting again"
      else "Too many requests. Please try again later."
    }
  }

  datatype Checked = Checked(verdict: Verdict, store: Store)

  /** `Math.ceil(ms / 1000)`. */
  function CeilSeconds(ms: int): int {
    -((-ms) / 1000)
  }

  /** The spacing condition: a previous allowed request is recorded (a `lastRequest`
      of 0 counts as none, as JavaScript's truthiness test has it) and it is less than
      `MinIntervalMs` ago. */
  predicate TooSoon(e: Entry, now: int) {
    e.lastRequest != 0 && now - e.lastRequest < MinIntervalMs
  }

  /** `checkRateLimit`: the decision for one request of `email` at `now`, and the store after it. */
  function CheckRateLimit(store: Store, email: string, now: int): (r: Checked)
    // only the record of the lower-cased address is created or touched
    ensures r.store.Keys == store.Keys + {Lower(email)}
    ensures forall k :: k in store && k != Lower(email) ==> r.store[k] == store[k]
    // an address seen for the first time is allowed and recorded once
    ensures Lower(email) !in store ==> r.verdict == Allowed && r.store[Lower(email)] == Entry(1, now, now)
    // a known address: window reset, then spacing, then the per-window cap
    ensures Lower(email) in store ==>
      var e := store[Lower(email)];
      var e' := r.store[Lower(email)];
      var reset := now - e.firstRequest > WindowMs;
      var count := if reset then 0 else e.count;
      && e'.firstRequest == (if reset then now else e.firstRequest)
      && (r.verdict.Wait? <==> TooSoon(e, now))
      && (r.verdict.Wait? ==> (r.verdict.seconds - 1) * 1000 < MinIntervalMs - (now - e.lastRequest) <= r.verdict.seconds * 1000)
      && (r.verdict.TooMany? <==> !TooSoon(e, now) && count >= MaxRequests)
      && (r.verdict.Allowed? ==> e'.count == count + 1 && e'.lastRequest == now)
      && (!r.verdict.Allowed? ==> e'.count == count && e'.lastRequest == e.lastRequest)
  {
    var key := Lower(email);
    var stored := if key in store then store[key] else Entry(0, now, 0);
    var e := if now - stored.firstRequest > WindowMs then stored.(count := 0, firstRequest := now) else stored;
    if TooSoon(e, now) then
      Checked(Wait(CeilSeconds(MinIntervalMs - (now - e.lastRequest))), store[key := e])
    else if e.count >= MaxRequests then
      Checked(TooMany, store[key := e])
    else
      Checked(Allowed, store[key := e.(count := e.count + 1, lastRequest := now)])
  }

  /** Every record holds a count between 0 and `MaxRequests`. */
  ghost predicate CountsBounded(store: Store) {
    forall k :: k in store ==> 0 <= store[k].count <= MaxRequests
  }

  /** The limiter never lets a record's count exceed `MaxRequests`. */
  lemma CountNeverExceedsMax(store: Store, email: string, now: int)
    requires CountsBounded(store)
    ensures CountsBounded(CheckRateLimit(store, email, now).store)
  {
  }

  /** Differently-cased spellings of one address share one record. */
  lemma KeysIgnoreCase(store: Store, a: string, b: string, now: int)
    requires Lower(a) == Lower(b)
    ensures CheckRateLimit(store, a, now) == CheckRateLimit(store, b, now)
  {
  }

  /** The wait reported for a too-early request is between 1 and 30 seconds when the
      clock has not gone backwards; a request exactly `MinIntervalMs` later passes the
      spacing check. */
  lemma WaitSecondsInRange(store: Store, email: string, now: int)
    requires Lower(email) in store
    requires now >= store[Lower(email)].lastRequest
    ensures var r := CheckRateLimit(store, email, now);
      r.verdict.Wait? ==> 1 <= r.verdict.seconds <= MinIntervalMs / 1000
    ensures now - store[Lower(email)].lastRequest >= MinIntervalMs ==>
      !CheckRateLimit(store, email, now).verdict.Wait?
  {
  }

  /** The outcome of a sequence of requests for one address at the given times. */
  function Replay(store: Store, email: string, times: seq<int>): (r: (seq<Verdict>, Store))
    ensures |r.0| == |times|
    decreases |times|
  {
    if |times| == 0 then ([], store)
    else
      var c := CheckRateLimit(store, email, times[0]);
      var rest := Replay(c.store, email, times[1..]);
      ([c.verdict] + rest.0, rest.1)
  }

  function AllowedCount(vs: seq<Verdict>): nat {
    if |vs| == 0 then 0 else (if vs[0].Allowed? then 1 else 0) + AllowedCount(vs[1..])
  }

  /** Inside the window opened by a record, at most the remaining budget of requests is allowed. */
  lemma {:induction false} AllowedWithinWindow(store: Store, email: string, times: seq<int>)
    requires Lower(email) in store
    requires 0 <= store[Lower(email)].count <= MaxRequests
    requires forall i :: 0 <= i < |times| ==> times[i] - store[Lower(email)].firstRequest <= WindowMs
    ensures AllowedCount(Replay(store, email, times).0) <= MaxRequests - store[Lower(email)].count
    decreases |times|
  {
    if |times| > 0 {
      var c := CheckRateLimit(store, email, times[0]);
      AllowedWithinWindow(c.store, email, times[1..]);
    }
  }

  /** From a first request on, a window of one hour allows at most `MaxRequests` requests. */
  lemma AtMostFivePerWindow(store: Store, email: string, times: seq<int>)
    requires Lower(email) !in store
    requires |times| >= 1
    requires forall i :: 0 <= i < |times| ==> times[i] - times[0] <= WindowMs
    ensures AllowedCount(Replay(store, email, times).0) <= MaxRequests
  {
    var c := CheckRateLimit(store, email, times[0]);
    AllowedWithinWindow(c.store, email, times[1..]);
  }

  /** Requests spaced at least `MinIntervalMs` apart, after the record's last one and inside
      its window, are allowed until the count reaches the cap and refused as too many after. */
  lemma {:induction false} SpacedInWindow(store: Store, email: string, times: seq<int>)
    requires Lower(email) in store
    requires 0 <= store[Lower(email)].count <= MaxRequests
    requires forall i :: 0 <= i < |times| ==> times[i] - store[Lower(email)].firstRequest <= WindowMs
    requires |times| > 0 ==> times[0] - store[Lower(email)].lastRequest >= MinIntervalMs
    requires forall i :: 0 < i < |times| ==> times[i] - times[i - 1] >= MinIntervalMs
    ensures forall i :: 0 <= i < |times| ==>
      Replay(store, email, times).0[i] == (if store[Lower(email)].count + i < MaxRequests then Allowed else TooMany)
    decreases |times|
  {
    if |times| > 0 {
      var n := store[Lower(email)].count;
      var c := CheckRateLimit(store, email, times[0]);
      assert c.verdict == (if n < MaxRequests then Allowed else TooMany);
      var rest := times[1..];
      assert forall i :: 0 < i < |rest| ==> rest[i] - rest[i - 1] >= MinIntervalMs by {
        forall i | 0 < i < |rest| ensures rest[i] - rest[i - 1] >= MinIntervalMs {
          assert rest[i] == times[i + 1] && rest[i - 1] == times[i];
        }
      }
      SpacedInWindow(c.store, email, rest);
      var vs := Replay(store, email, times).0;
      assert vs == [c.verdict] + Replay(c.store, email, rest).0;
      forall i | 0 < i < |times|
        ensures vs[i] == (if n + i < MaxRequests then Allowed else TooMany)
      {
        assert vs[i] == Replay(c.store, email, rest).0[i - 1];
      }
    }
  }

  /** Five requests 30 s apart are all allowed; a sixth 30 s later is refused as too many. */
  lemma FiveSpacedRequestsThenRefused(store: Store, email: string, t: int)
    requires Lower(email) !in store
    ensures Replay(store, email, [t, t + 30000, t + 60000, t + 90000, t + 120000, t + 150000]).0
      == [Allowed, Allowed, Allowed, Allowed, Allowed, TooMany]
  {
    var times := [t, t + 30000, t + 60000, t + 90000, t + 120000, t + 150000];
    var c0 := CheckRateLimit(store, email, times[0]);
    var rest := times[1..];
    assert rest == [t + 30000, t + 60000, t + 90000, t + 120000, t + 150000];
    SpacedInWindow(c0.store, email, rest);
    var vs := Replay(store, email, times).0;
    assert vs == [Allowed] + Replay(c0.store, email, rest).0;
  }

  /** A request 29 s after an allowed one (at a non-zero time) is told to wait 1 second. */
  lemma TwentyNineSecondsIsTooSoon(store: Store, email: string, t: int)
    requires Lower(email) !in store
    requires t != 0
    ensures Replay(store, email, [t, t + 29000]).0 == [Allowed, Wait(1)]
  {
    var c0 := CheckRateLimit(store, email, t);
    assert [t, t + 29000][1..][1..] == [];
  }

  /** A recorded `lastRequest` of 0 is falsy, so a request allowed at time 0 does not
      start the spacing rule for the next one. */
  lemma ZeroTimestampSkipsSpacing(store: Store, email: string)
    requires Lower(email) !in store
    ensures Replay(store, email, [0, 1]).0 == [Allowed, Allowed]
  {
    assert [0, 1][1..][1..] == [];
  }
}

/** The `send-link` handler's routing: the status code and body it answers with,
    whether it consults the limiter, and whether a sign-in link is mailed. Firebase link
    generation and the e-mail provider are reduced to whether they are configured and
    whether they succeed. */
module SendLink {
  import opened Wrappers
  import opened Text
  import RateLimit

  const Domain: string := "@krmu.edu.in"
  const GenericMessage: string := "If eligible, you will receive a sign-in link"

  /** What `JSON.parse(event.body || '{}')` gives, as far as the schema looks at it:
      a parse failure, or an object with or without a string `email` field. */
  datatype Body = Unparsable | Parsed(email: Option<string>)

  /** The collaborators called after the limiter: whether the Admin SDK has an app and the
      mail client exists, and whether link generation and sending succeed or throw. */
  datatype Services = Services(firebaseReady: bool, resendReady: bool, linkSucceeds: bool, sendSucceeds: bool)

  datatype Payload = Empty | Json(success: bool, message: string)

  datatype Response = Response(status: int, payload: Payload)

  /** The answer, the limiter's store afterwards, and the address a sign-in link was
      mailed to, if any. */
  datatype Handled = Handled(response: Response, store: RateLimit.Store, mailedTo: Option<string>)

  const Generic: Response := Response(200, Json(true, GenericMessage))

  /** The schema `{ email: string().email().toLowerCase().refine(endsWith domain) }`.
      The e-mail format check is the opaque predicate `isEmail`, applied before lower-casing. */
  function ValidateEmail(body: Body, isEmail: string -> bool): (r: Option<string>)
    ensures r.Some? <==>
      body.Parsed? && body.email.Some? && isEmail(body.email.value) && EndsWith(Lower(body.email.value), Domain)
    ensures r.Some? ==> r.value == Lower(body.email.value) && EndsWith(r.value, Domain)
  {
    match body
    case Unparsable => None
    case Parsed(None) => None
    case Parsed(Some(raw)) =>
      if isEmail(raw) && EndsWith(Lower(raw), Domain) then Some(Lower(raw)) else None
  }

  /** `handler`: preflight, method check, schema, limiter, then the services. */
  function Handle(httpMethod: string, body: Body, isEmail: string -> bool, services: Services,
                  store: RateLimit.Store, now: int): (r: Handled)
    ensures httpMethod == "OPTIONS" ==> r == Handled(Response(200, Empty), store, None)
    ensures httpMethod != "OPTIONS" && httpMethod != "POST" ==>
      r == Handled(Response(405, Json(false, "Method not allowed")), store, None)
    // an invalid or ineligible address leaves the limiter untouched and looks like success
    ensures httpMethod == "POST" && ValidateEmail(body, isEmail).None? ==> r == Handled(Generic, store, None)
    // a valid address is charged to the limiter; a refusal is the only non-generic answer
    ensures httpMethod == "POST" && ValidateEmail(body, isEmail).Some? ==>
      var c := RateLimit.CheckRateLimit(store, ValidateEmail(body, isEmail).value, now);
      && r.store == c.store
      && (c.verdict.Allowed? ==> r.response == Generic)
      && (!c.verdict.Allowed? ==> r.response == Response(429, Json(false, c.verdict.Message())))
      // a link goes out only to an allowed address, and only when every service does its part
      && (r.mailedTo.Some? <==> c.verdict.Allowed? && services.firebaseReady && services.resendReady
                                && services.linkSucceeds && services.sendSucceeds)
      && (r.mailedTo.Some? ==> r.mailedTo == ValidateEmail(body, isEmail))
    ensures r.mailedTo.Some? ==> httpMethod == "POST"
    ensures r.response.status in {200, 405, 429}
  {
    if httpMethod == "OPTIONS" then
      Handled(Response(200, Empty), store, None)
    else if httpMethod != "POST" then
      Handled(Response(405, Json(false, "Method not allowed")), store, None)
    else
      match ValidateEmail(body, isEmail)
      case None => Handled(Generic, store, None)
      case Some(email) =>
        var c := RateLimit.CheckRateLimit(store, email, now);
        if !c.verdict.Allowed? then
          Handled(Response(429, Json(false, c.verdict.Message())), c.store, None)
        // no Admin SDK app, or no mail client: the generic success, nothing sent
        else if !services.firebaseReady || !services.resendReady then
          Handled(Generic, c.store, None)
        // link generation or sending throws: the catch answers the generic success
        else if !services.linkSucceeds || !services.sendSucceeds then
          Handled(Generic, c.store, None)
        else
          Handled(Generic, c.store, Some(email))
  }

  /** The answer does not reveal whether the link was generated and sent: the response and
      the limiter are the same whatever the state of the services, although whether a link
      is mailed depends on them. */
  lemma ResponseIgnoresServices(httpMethod: string, body: Body, isEmail: string -> bool,
                                s1: Services, s2: Services, store: RateLimit.Store, now: int)
    ensures var r1, r2 := Handle(httpMethod, body, isEmail, s1, store, now), Handle(httpMethod, body, isEmail, s2, store, now);
      r1.response == r2.response && r1.store == r2.store
  {
  }

  /** A mailed link and a service failure give the same answer to the same request. */
  lemma DeliveryIsInvisible(body: Body, isEmail: string -> bool, store: RateLimit.Store, now: int)
    requires ValidateEmail(body, isEmail).Some?
    requires RateLimit.CheckRateLimit(store, ValidateEmail(body, isEmail).value, now).verdict.Allowed?
    ensures var ok, down := Services(true, true, true, true), Services(true, true, true, false);
      && Handle("POST", body, isEmail, ok, store, now).mailedTo == ValidateEmail(body, isEmail)
      && Handle("POST", body, isEmail, down, store, now).mailedTo == None
      && Handle("POST", body, isEmail, ok, store, now).response == Handle("POST", body, isEmail, down, store, now).response
  {
  }

  /** A POST is answered either with the generic success or with 429, and with 429 only
      for an eligible address the limiter refused. */
  lemma PostIsGenericOrRateLimited(body: Body, isEmail: string -> bool, services: Services,
                                   store: RateLimit.Store, now: int)
    ensures var r := Handle("POST", body, isEmail, services, store, now);
      r.response == Generic || (r.response.status == 429 && ValidateEmail(body, isEmail).Some?)
  {
  }
}

=== FILE: session_guard.dfy ===
/** The optimistic session guard every page runs before the authentication SDK loads:
    it redirects on the local session flag alone. */
module SessionGuard {
  import opened Text
  import AuthService

  datatype Redirect = ToDashboard | ToLogin {
    /** The URL handed to `location.replace`. */
    function Target(): string {
      match this
      case ToDashboard => "dashboard.html"
      case ToLogin => "index.html"
    }
  }

  predicate IsLoginPage(path: string) {
    EndsWith(path, "index.html") || path == "/" || EndsWith(path, "/")
  }

  predicate IsProtectedPage(path: string) {
    Contains(path, "dashboard.html") || Contains(path, "form.html") || Contains(path, "stats.html")
  }

  /** `localStorage.getItem('krmu_session') === 'true'`. */
  predicate HasSession(storage: AuthService.Storage) {
    AuthService.SessionKey in storage && storage[AuthService.SessionKey] == "true"
  }

  /** The redirects the guard issues for `path`, in order. */
  function Guard(path: string, storage: AuthService.Storage): (r: seq<Redirect>)
    ensures |r| <= 1
    ensures r == [ToDashboard] <==> IsLoginPage(path) && HasSession(storage)
    ensures r == [ToLogin] <==> IsProtectedPage(path) && !HasSession(storage)
    ensures r == [] <==> !(IsLoginPage(path) && HasSession(storage)) && !(IsProtectedPage(path) && !HasSession(storage))
  {
    // the two checks exclude each other, so at most one of them fires
    if IsLoginPage(path) && HasSession(storage) then [ToDashboard]
    else if IsProtectedPage(path) && !HasSession(storage) then [ToLogin]
    else []
  }

  /** The directory of a pathname: everything up to and including its last `/`. */
  function Dir(path: string): (d: string)
    ensures d <= path
    ensures d == "" || d[|d| - 1] == '/'
    ensures forall i :: |d| <= i < |path| ==> path[i] != '/'
  {
    if |path| == 0 then ""
    else if path[|path| - 1] == '/' then path
    else Dir(path[..|path| - 1])
  }

  /** The pathname `location.replace(r.Target())` leads to from `path`: the relative URL is
      resolved against the current directory. */
  function Landing(path: string, r: Redirect): string {
    Dir(path) + r.Target()
  }

  /** Wherever the dashboard lands, it is not a login page. */
  lemma DashboardIsNoLoginPage(dir: string)
    ensures !IsLoginPage(dir + "dashboard.html")
  {
    var p := dir + "dashboard.html";
    assert p[|p| - 10..] == "board.html";
    assert "board.html"[0] != "index.html"[0];
    assert p[|p| - 1..] == "l";
  }

  /** The login page is protected exactly when its directory already names a protected
      page: "index.html" adds none of the protected names, not even across the seam. */
  lemma LoginPageProtectedByDir(dir: string)
    ensures IsProtectedPage(dir + "index.html") <==> IsProtectedPage(dir)
  {
    ContainsLonger("ndex.html", "dashboard.html");
    IndexAddsNo(dir, "dashboard.html");
    assert !StartsWith("ndex.html", "form.html") by {
      assert "ndex.html"[0] != "form.html"[0];
    }
    assert "ndex.html"[1..] == "dex.html";
    ContainsLonger("dex.html", "form.html");
    IndexAddsNo(dir, "form.html");
    ContainsLonger("ndex.html", "stats.html");
    IndexAddsNo(dir, "stats.html");
  }

  /** A name without an `i` that does not occur in the tail "ndex.html" cannot begin inside
      "index.html", so appending that page adds no occurrence of it. */
  lemma IndexAddsNo(dir: string, name: string)
    requires |name| > 0 && 'i' !in name && !Contains("ndex.html", name)
    ensures Contains(dir + "index.html", name) <==> Contains(dir, name)
  {
    var b := "index.html";
    assert b[0] == 'i' && b[1..] == "ndex.html";
    ContainsAcross(dir, b, name);
  }

  /** Where a redirect leads: the dashboard never redirects again; the login page redirects
      again, back to itself, exactly when its directory names a protected page. */
  lemma TargetsAreStable(path: string, storage: AuthService.Storage)
    ensures Guard(path, storage) == [ToDashboard] ==> Guard(Landing(path, ToDashboard), storage) == []
    ensures Guard(path, storage) == [ToLogin] ==>
      && (Guard(Landing(path, ToLogin), storage) == [] <==> !IsProtectedPage(Dir(path)))
      && (Guard(Landing(path, ToLogin), storage) == [ToLogin] <==> IsProtectedPage(Dir(path)))
  {
    DashboardIsNoLoginPage(Dir(path));
    LoginPageProtectedByDir(Dir(path));
  }

  /** A signed-out visit to `/stats.html/` is sent to `/stats.html/index.html`, which is
      protected too, so the guard sends the visitor there again and again. */
  lemma SlashAfterPageLoops()
    ensures Guard("/stats.html/", map[]) == [ToLogin]
    ensures Landing("/stats.html/", ToLogin) == "/stats.html/index.html"
    ensures Guard("/stats.html/index.html", map[]) == [ToLogin]
  {
    var path := "/stats.html/";
    assert path[|path| - 1] == '/';
    assert Dir(path) == path;
    assert Landing(path, ToLogin) == path + "index.html";
    assert path + "index.html" == "/stats.html/index.html";
    assert IsProtectedPage(path) by {
      assert StartsWith(path[1..], "stats.html");
      assert Contains(path, "stats.html");
    }
    LoginPageProtectedByDir(path);
    assert !HasSession(map[]);
  }

  /** Once a sign-in succeeds, the login page forwards to the dashboard and protected pages
      let the visitor stay. */
  lemma SignedInIsForwarded(email: string, outcome: AuthService.Outcome, storage: AuthService.Storage, path: string)
    requires AuthService.SignIn(email, true, outcome, storage).result.Success?
    ensures var after := AuthService.SignIn(email, true, outcome, storage).storage;
      && (IsLoginPage(path) ==> Guard(path, after) == [ToDashboard])
      && (!IsLoginPage(path) ==> Guard(path, after) == [])
  {
  }

  /** Without the session flag, protected pages send the visitor to the login page. */
  lemma SignedOutIsTurnedAway(path: string, storage: AuthService.Storage)
    requires AuthService.SessionKey !in storage
    ensures IsProtectedPage(path) <==> Guard(path, storage) == [ToLogin]
  {
  }
}

=== FILE: stats.dfy ===
/** Comma-separated records whose every cell is wrapped in double quotes, as the
    activity export writes them, and a reader for such records. */
module Csv {
  import opened Wrappers
  import opened Text

  const Quote: char := '"'

  /** `"${c}"`: the cell between quotes, with quotes inside it left as they are. */
  function QuoteAsWritten(cell: string): string {
    [Quote] + cell + [Quote]
  }

  /** `r.map(c => `"${c}"`).join(',')`: one record as the export writes it. */
  function RecordAsWritten(cells: seq<string>): string {
    Join(seq(|cells|, i requires 0 <= i < |cells| => QuoteAsWritten(cells[i])), ',')
  }

  /** Every quote inside a cell doubled, as section 2 of RFC 4180 asks of quoted fields. */
  function EscapeQuotes(cell: string): (r: string)
    ensures |r| >= |cell|
  {
    if |cell| == 0 then ""
    else (if cell[0] == Quote then [Quote, Quote] else [cell[0]]) + EscapeQuotes(cell[1..])
  }

  function QuoteCell(cell: string): string {
    [Quote] + EscapeQuotes(cell) + [Quote]
  }

  /** One record with quotes inside cells doubled. */
  function Record(cells: seq<string>): string {
    Join(seq(|cells|, i requires 0 <= i < |cells| => QuoteCell(cells[i])), ',')
  }

  /** Reads the body of a quoted cell (the text after its opening quote) up to the closing
      quote; a doubled quote stands for one quote. Gives the cell and the text after it. */
  function ParseQuoted(s: string): (r: Option<(string, string)>)
    ensures r.Some? ==> |r.value.1| < |s|
    decreases |s|
  {
    if |s| == 0 then None
    else if s[0] == Quote then
      if |s| >= 2 && s[1] == Quote then
        match ParseQuoted(s[2..])
        case None => None
        case Some(p) => Some(([Quote] + p.0, p.1))
      else Some(("", s[1..]))
    else
      match ParseQuoted(s[1..])
      case None => None
      case Some(p) => Some(([s[0]] + p.0, p.1))
  }

  /** Reads a record of quoted cells separated by commas. */
  function ParseRecord(s: string): Option<seq<string>>
    decreases |s|
  {
    if |s| == 0 || s[0] != Quote then None
    else
      match ParseQuoted(s[1..])
      case None => None
      case Some(p) =>
        if |p.1| == 0 then Some([p.0])
        else if p.1[0] == ',' then
          match ParseRecord(p.1[1..])
          case None => None
          case Some(cells) => Some([p.0] + cells)
        else None
  }

  /** A cell escaped and closed reads back as the cell, leaving what follows the closing quote. */
  lemma {:induction false} ParseQuotedEscaped(cell: string, rest: string)
    requires |rest| == 0 || rest[0] != Quote
    ensures ParseQuoted(EscapeQuotes(cell) + [Quote] + rest) == Some((cell, rest))
  {
    var s := EscapeQuotes(cell) + [Quote] + rest;
    if |cell| == 0 {
      assert s == [Quote] + rest;
      assert s[1..] == rest;
    } else {
      ParseQuotedEscaped(cell[1..], rest);
      var tail := EscapeQuotes(cell[1..]) + [Quote] + rest;
      if cell[0] == Quote {
        assert s == [Quote, Quote] + tail;
        assert s[2..] == tail;
      } else {
        assert s == [cell[0]] + tail;
        assert s[1..] == tail;
      }
      assert [cell[0]] + cell[1..] == cell;
    }
  }

  /** Reading back a record written with doubled quotes gives the cells. */
  lemma {:induction false} RecordRoundTrip(cells: seq<string>)
    requires |cells| >= 1
    ensures ParseRecord(Record(cells)) == Some(cells)
  {
    var quoted := seq(|cells|, i requires 0 <= i < |cells| => QuoteCell(cells[i]));
    var s := Record(cells);
    if |cells| == 1 {
      assert quoted == [QuoteCell(cells[0])];
      assert s == QuoteCell(cells[0]);
      assert s[0] == Quote;
      assert s[1..] == EscapeQuotes(cells[0]) + [Quote] + "";
      ParseQuotedEscaped(cells[0], "");
      assert cells == [cells[0]];
    } else {
      var more := Record(cells[1..]);
      assert quoted[1..] == seq(|cells[1..]|, i requires 0 <= i < |cells[1..]| => QuoteCell(cells[1..][i]));
      assert s == QuoteCell(cells[0]) + [','] + more;
      assert s == [Quote] + (EscapeQuotes(cells[0]) + [Quote] + ([','] + more));
      ParseQuotedEscaped(cells[0], [','] + more);
      assert ([','] + more)[1..] == more;
      RecordRoundTrip(cells[1..]);
      assert [cells[0]] + cells[1..] == cells;
    }
  }

  lemma {:induction false} EscapeQuotesPlain(cell: string)
    requires Quote !in cell
    ensures EscapeQuotes(cell) == cell
  {
    if |cell| > 0 {
      EscapeQuotesPlain(cell[1..]);
      assert [cell[0]] + cell[1..] == cell;
    }
  }

  /** Without quotes inside cells the export as written is the escaped record, so it reads
      back correctly. */
  lemma AsWrittenWithoutQuotes(cells: seq<string>)
    requires forall i :: 0 <= i < |cells| ==> Quote !in cells[i]
    ensures RecordAsWritten(cells) == Record(cells)
    ensures |cells| >= 1 ==> ParseRecord(RecordAsWritten(cells)) == Some(cells)
  {
    forall i | 0 <= i < |cells| ensures QuoteAsWritten(cells[i]) == QuoteCell(cells[i]) {
      EscapeQuotesPlain(cells[i]);
    }
    assert seq(|cells|, i requires 0 <= i < |cells| => QuoteAsWritten(cells[i]))
        == seq(|cells|, i requires 0 <= i < |cells| => QuoteCell(cells[i]));
    if |cells| >= 1 {
      RecordRoundTrip(cells);
    }
  }

  /** As written, a single cell holding `x","y` comes out as two cells, `x` and `y`. */
  lemma AsWrittenSplitsCell()
    ensures ParseRecord(RecordAsWritten(["x\",\"y"])) == Some(["x", "y"])
  {
    var cell := "x\",\"y";
    assert seq(1, i requires 0 <= i < 1 => QuoteAsWritten([cell][i])) == [QuoteAsWritten(cell)];
    EscapeQuotesPlain("x");
    EscapeQuotesPlain("y");
    var cells := ["x", "y"];
    assert seq(2, i requires 0 <= i < 2 => QuoteCell(cells[i])) == [QuoteCell("x"), QuoteCell("y")];
    assert QuoteCell("x") == "\"x\"" && QuoteCell("y") == "\"y\"";
    assert Join([QuoteCell("x"), QuoteCell("y")], ',') == QuoteCell("x") + [','] + QuoteCell("y");
    assert QuoteAsWritten(cell) == "\"x\",\"y\"";
    assert RecordAsWritten([cell]) == Record(cells);
    RecordRoundTrip(cells);
  }

  lemma {:induction false} EscapeQuotesAvoids(cell: string, x: char)
    requires x != Quote && x !in cell
    ensures x !in EscapeQuotes(cell)
  {
    if |cell| > 0 {
      EscapeQuotesAvoids(cell[1..], x);
    }
  }

  /** A character other than a quote or a comma that no cell holds is not in the record. */
  lemma RecordAvoids(cells: seq<string>, x: char)
    requires x != Quote && x != ','
    requires forall i :: 0 <= i < |cells| ==> x !in cells[i]
    ensures x !in Record(cells)
  {
    var quoted := seq(|cells|, i requires 0 <= i < |cells| => QuoteCell(cells[i]));
    forall i | 0 <= i < |quoted| ensures x !in quoted[i] {
      EscapeQuotesAvoids(cells[i], x);
    }
    JoinAvoids(quoted, ',', x);
  }
}

/** The activity page: the table of recent sign-in events (`renderTable`), the search
    box (`handleSearch`) and the CSV export (`exportCSV`). */
module Activity {
  import opened Wrappers
  import opened Text
  import HtmlEscape
  import RelativeTime
  import Csv

  /** A property of a fetched activity record: missing, `null`, or a string. */
  datatype Field = Absent | Null | Text(s: string)

  /** One activity record as the server sends it. */
  datatype Entry = Entry(createdAt: Field, name: Field, rollNumber: Field, email: Field, purpose: Field)

  predicate Truthy(f: Field) { f.Text? && f.s != "" }

  /** `f || fallback` for a string fallback. */
  function Or(f: Field, fallback: string): (r: string)
    ensures Truthy(f) ==> r == f.s
    ensures !Truthy(f) ==> r == fallback
  {
    if Truthy(f) then f.s else fallback
  }

  /** `row.roll_number || row.email || fallback`. */
  function RollOrEmail(e: Entry, fallback: string): (r: string)
    ensures Truthy(e.rollNumber) ==> r == e.rollNumber.s
    ensures !Truthy(e.rollNumber) && Truthy(e.email) ==> r == e.email.s
    ensures !Truthy(e.rollNumber) && !Truthy(e.email) ==> r == fallback
  {
    if Truthy(e.rollNumber) then e.rollNumber.s else Or(e.email, fallback)
  }

  /** A field placed in a template literal or concatenated with a string. */
  function Interpolate(f: Field): string {
    match f
    case Absent => "undefined"
    case Null => "null"
    case Text(s) => s
  }

  /** Whether an entry matches an already lower-cased search term, by name or by roll number
      (the email standing in when the roll number is empty). */
  predicate Matches(e: Entry, term: string) {
    Contains(Lower(Or(e.name, "")), term) || Contains(Lower(RollOrEmail(e, "")), term)
  }

  function Filter(entries: seq<Entry>, term: string): (r: seq<Entry>)
    ensures |r| <= |entries|
    ensures forall e :: e in r ==> e in entries && Matches(e, term)
  {
    if |entries| == 0 then []
    else (if Matches(entries[0], term) then [entries[0]] else []) + Filter(entries[1..], term)
  }

  /** `handleSearch(query)`'s filter: the entries matching the lower-cased query, in order. */
  function Search(entries: seq<Entry>, query: string): (r: seq<Entry>)
    ensures |r| <= |entries|
    ensures forall e :: e in r ==> e in entries && Matches(e, Lower(query))
  {
    Filter(entries, Lower(query))
  }

  lemma {:induction false} FilterMembership(entries: seq<Entry>, term: string, e: Entry)
    ensures e in Filter(entries, term) <==> e in entries && Matches(e, term)
  {
    if |entries| > 0 {
      FilterMembership(entries[1..], term, e);
      assert entries == [entries[0]] + entries[1..];
    }
  }

  /** An entry survives the search exactly when it is listed and matches. */
  lemma SearchMembership(entries: seq<Entry>, query: string, e: Entry)
    ensures e in Search(entries, query) <==> e in entries && Matches(e, Lower(query))
  {
    FilterMembership(entries, Lower(query), e);
  }

  lemma {:induction false} FilterAppend(a: seq<Entry>, b: seq<Entry>, term: string)
    ensures Filter(a + b, term) == Filter(a, term) + Filter(b, term)
  {
    if |a| > 0 {
      var head := if Matches(a[0], term) then [a[0]] else [];
      assert (a + b)[0] == a[0] && (a + b)[1..] == a[1..] + b;
      FilterAppend(a[1..], b, term);
      assert Filter(a + b, term) == head + (Filter(a[1..], term) + Filter(b, term));
    } else {
      assert a + b == b;
    }
  }

  /** Searching a concatenation searches each part: the filter keeps the entries' order. */
  lemma SearchAppend(a: seq<Entry>, b: seq<Entry>, query: string)
    ensures Search(a + b, query) == Search(a, query) + Search(b, query)
  {
    FilterAppend(a, b, Lower(query));
  }

  lemma {:induction false} FilterAll(entries: seq<Entry>, term: string)
    requires forall i :: 0 <= i < |entries| ==> Matches(entries[i], term)
    ensures Filter(entries, term) == entries
  {
    if |entries| > 0 {
      FilterAll(entries[1..], term);
    }
  }

  /** An empty search box shows every entry. */
  lemma SearchEmptyQuery(entries: seq<Entry>)
    ensures Search(entries, "") == entries
  {
    forall i | 0 <= i < |entries| ensures Matches(entries[i], "") {
      ContainsEmpty(Lower(Or(entries[i].name, "")));
    }
    FilterAll(entries, "");
  }

  /** Searching the result again with the same query changes nothing. */
  lemma SearchIdempotent(entries: seq<Entry>, query: string)
    ensures Search(Search(entries, query), query) == Search(entries, query)
  {
    var r := Search(entries, query);
    forall i | 0 <= i < |r| ensures Matches(r[i], Lower(query)) {
      assert r[i] in r;
    }
    FilterAll(r, Lower(query));
  }

  /** The search ignores the case of the query's ASCII letters. */
  lemma SearchIgnoresCase(entries: seq<Entry>, query: string)
    ensures Search(entries, Lower(query)) == Search(entries, query)
  {
    LowerIdempotent(query);
  }

  datatype Badge = Primary | Secondary

  /** The four cells of a rendered row and the badge style of the action. */
  datatype Row = Row(time: string, student: string, roll: string, action: string, badge: Badge)

  /** The table body: the "No activity found" placeholder, or one row per entry. */
  datatype Table = NoActivity | Rows(rows: seq<Row>)

  /** One row of `renderTable`. `parse` is the `Date` constructor's reading of a string
      (`None` for an invalid date) and `now` the current time in milliseconds. */
  function RenderRow(e: Entry, parse: string -> Option<int>, now: int): (r: Row)
    ensures r.badge == Primary <==> e.purpose == Text("login")
    ensures r.action == (if e.purpose == Text("login") then "Logged in" else "Requested OTP")
    ensures HtmlEscape.Unescape(r.student) == Or(e.name, "Unknown User")
    ensures HtmlEscape.Unescape(r.roll) == RollOrEmail(e, "-")
    ensures '<' !in r.student && '>' !in r.student && '<' !in r.roll && '>' !in r.roll
    ensures r.time == RelativeTime.TimeAgo(parse(Interpolate(e.createdAt) + "Z"), now)
  {
    var name := Or(e.name, "Unknown User");
    var roll := RollOrEmail(e, "-");
    var isLogin := e.purpose == Text("login");
    HtmlEscape.EscapeHtmlSpec(HtmlEscape.Str(name));
    HtmlEscape.EscapeHtmlSpec(HtmlEscape.Str(roll));
    HtmlEscape.UnescapeEscape(name);
    HtmlEscape.UnescapeEscape(roll);
    Row(RelativeTime.TimeAgo(parse(Interpolate(e.createdAt) + "Z"), now),
        HtmlEscape.EscapeHtml(HtmlEscape.Str(name)),
        HtmlEscape.EscapeHtml(HtmlEscape.Str(roll)),
        if isLogin then "Logged in" else "Requested OTP",
        if isLogin then Primary else Secondary)
  }

  /** `renderTable(data)`: the placeholder for no entries, otherwise one row per entry in order. */
  function RenderTable(entries: seq<Entry>, parse: string -> Option<int>, now: int): (r: Table)
    ensures r.NoActivity? <==> |entries| == 0
    ensures r.Rows? ==> |r.rows| == |entries|
    ensures r.Rows? ==> forall i :: 0 <= i < |entries| ==> r.rows[i] == RenderRow(entries[i], parse, now)
  {
    if |entries| == 0 then NoActivity
    else Rows(seq(|entries|, i requires 0 <= i < |entries| => RenderRow(entries[i], parse, now)))
  }

  /** `handleSearch(query)`: the table of the matching entries. */
  function HandleSearch(entries: seq<Entry>, query: string, parse: string -> Option<int>, now: int): Table {
    RenderTable(Search(entries, query), parse, now)
  }

  /** An empty query renders the full table; a query that matches nothing renders the placeholder. */
  lemma HandleSearchCases(entries: seq<Entry>, query: string, parse: string -> Option<int>, now: int)
    ensures query == "" ==> HandleSearch(entries, query, parse, now) == RenderTable(entries, parse, now)
    ensures (forall i :: 0 <= i < |entries| ==> !Matches(entries[i], Lower(query)))
      ==> HandleSearch(entries, query, parse, now) == NoActivity
  {
    SearchEmptyQuery(entries);
    if forall i :: 0 <= i < |entries| ==> !Matches(entries[i], Lower(query)) {
      FilterNone(entries, Lower(query));
    }
  }

  lemma {:induction false} FilterNone(entries: seq<Entry>, term: string)
    requires forall i :: 0 <= i < |entries| ==> !Matches(entries[i], term)
    ensures Filter(entries, term) == []
  {
    if |entries| > 0 {
      FilterNone(entries[1..], term);
    }
  }

  const Headers: seq<string> := ["Time", "Student Name", "Roll Number", "Email", "Action"]

  /** The five cells of an entry's export row, in header order. */
  function Cells(e: Entry): (r: seq<string>)
    ensures |r| == |Headers|
    ensures r[1] == Or(e.name, "Unknown") && r[2] == Or(e.rollNumber, "") && r[3] == Or(e.email, "")
    // the time and action cells are the raw fields as a template literal prints them
    ensures r[0] == Interpolate(e.createdAt) && r[4] == Interpolate(e.purpose)
    ensures e.createdAt.Text? ==> r[0] == e.createdAt.s
    ensures e.purpose.Text? ==> r[4] == e.purpose.s
  {
    [Interpolate(e.createdAt), Or(e.name, "Unknown"), Or(e.rollNumber, ""), Or(e.email, ""), Interpolate(e.purpose)]
  }

  /** The header line, "Time,Student Name,Roll Number,Email,Action". */
  const HeaderLine: string := "Time" + "," + "Student Name" + "," + "Roll Number" + "," + "Email" + "," + "Action"

  /** The header line, then each entry's cells written by `record`. */
  function Lines(entries: seq<Entry>, record: seq<string> -> string): (r: seq<string>)
    ensures |r| == |entries| + 1 && r[0] == Join(Headers, ',')
    ensures forall i :: 0 <= i < |entries| ==> r[i + 1] == record(Cells(entries[i]))
  {
    [Join(Headers, ',')] + seq(|entries|, i requires 0 <= i < |entries| => record(Cells(entries[i])))
  }

  /** `exportCSV()` as written: nothing for no entries, else the header line and one line per
      entry, each cell wrapped in quotes as it is. */
  function ExportCsvAsWritten(entries: seq<Entry>): (r: Option<string>)
    ensures r.None? <==> |entries| == 0
    ensures r.Some? ==> StartsWith(r.value, HeaderLine)
  {
    if |entries| == 0 then None
    else
      HeaderJoin();
      JoinStartsWith(Lines(entries, Csv.RecordAsWritten), '\n');
      Some(Join(Lines(entries, Csv.RecordAsWritten), '\n'))
  }

  /** The export with quotes inside cells doubled, so that every row reads back as written. */
  function ExportCsv(entries: seq<Entry>): (r: Option<string>)
    ensures r.None? <==> |entries| == 0
    ensures r.Some? ==> StartsWith(r.value, HeaderLine)
  {
    if |entries| == 0 then None
    else
      HeaderJoin();
      JoinStartsWith(Lines(entries, Csv.Record), '\n');
      Some(Join(Lines(entries, Csv.Record), '\n'))
  }

  lemma HeaderJoin()
    ensures Join(Headers, ',') == HeaderLine
  {
    var h := Headers;
    var comma := [','];
    assert h[4..] == ["Action"];
    assert h[3..][1..] == h[4..] && h[2..][1..] == h[3..] && h[1..][1..] == h[2..];
    assert Join(h[3..], ',') == "Email" + comma + "Action";
    assert Join(h[2..], ',') == "Roll Number" + comma + Join(h[3..], ',');
    assert Join(h[1..], ',') == "Student Name" + comma + Join(h[2..], ',');
    assert Join(h, ',') == "Time" + comma + Join(h[1..], ',');
  }

  predicate NoNewlines(e: Entry) {
    forall j :: 0 <= j < |Cells(e)| ==> '\n' !in Cells(e)[j]
  }

  /** With no line break inside a cell, the export is the header line followed by one line
      per entry that reads back as exactly that entry's cells. */
  lemma ExportLines(entries: seq<Entry>)
    requires |entries| > 0
    requires forall i :: 0 <= i < |entries| ==> NoNewlines(entries[i])
    ensures var lines := Split(ExportCsv(entries).value, '\n');
      && |lines| == |entries| + 1
      && lines[0] == HeaderLine
      && forall i :: 0 <= i < |entries| ==> Csv.ParseRecord(lines[i + 1]) == Some(Cells(entries[i]))
  {
    var parts := Lines(entries, Csv.Record);
    HeaderJoin();
    LinesFreeOfNewlines(entries);
    SplitJoin(parts, '\n');
    forall i | 0 <= i < |entries| ensures Csv.ParseRecord(parts[i + 1]) == Some(Cells(entries[i])) {
      Csv.RecordRoundTrip(Cells(entries[i]));
    }
  }

  lemma LinesFreeOfNewlines(entries: seq<Entry>)
    requires forall i :: 0 <= i < |entries| ==> NoNewlines(entries[i])
    ensures forall i :: 0 <= i < |entries| + 1 ==> '\n' !in Lines(entries, Csv.Record)[i]
  {
    var parts := Lines(entries, Csv.Record);
    HeaderJoin();
    forall i | 0 <= i < |parts| ensures '\n' !in parts[i] {
      if i > 0 {
        Csv.RecordAvoids(Cells(entries[i - 1]), '\n');
      }
    }
  }

  /** Without quotes inside cells, the export as written and the corrected one agree. */
  lemma ExportAgreesWithoutQuotes(entries: seq<Entry>)
    requires forall i, j :: 0 <= i < |entries| && 0 <= j < |Cells(entries[i])| ==> Csv.Quote !in Cells(entries[i])[j]
    ensures ExportCsvAsWritten(entries) == ExportCsv(entries)
  {
    forall i | 0 <= i < |entries|
      ensures Csv.RecordAsWritten(Cells(entries[i])) == Csv.Record(Cells(entries[i]))
    {
      Csv.AsWrittenWithoutQuotes(Cells(entries[i]));
    }
    assert Lines(entries, Csv.RecordAsWritten) == Lines(entries, Csv.Record);
  }
}

=== FILE: text.dfy ===
/** Text helpers shared by the modules of this model.

    JavaScript strings are sequences of UTF-16 code units; here they are
    `string` (`seq<char>`), whose elements are Unicode scalar values, so a
    character outside the Basic Multilingual Plane is one element here and two
    code units there. Where a string's `.length` decides something, it is
    `Utf16Length`, not `|s|`. Case mapping covers ASCII letters only, while
    trimming uses the full set of characters `String.prototype.trim` removes
    (white space and line terminators). */
module Text {

  predicate IsDigit(c: char) { '0' <= c <= '9' }

  predicate IsUpper(c: char) { 'A' <= c <= 'Z' }

  predicate IsLower(c: char) { 'a' <= c <= 'z' }

  /** The class `[a-zA-Z0-9]` of a regular expression. */
  predicate IsAsciiAlnum(c: char) { IsDigit(c) || IsUpper(c) || IsLower(c) }

  /** `s.length` in JavaScript: the number of UTF-16 code units, two for each character
      outside the Basic Multilingual Plane (a surrogate pair). */
  function Utf16Length(s: string): (n: nat)
    ensures |s| <= n <= 2 * |s|
  {
    if |s| == 0 then 0 else (if s[0] >= '\U{10000}' then 2 else 1) + Utf16Length(s[1..])
  }

  /** Within the Basic Multilingual Plane, code units and characters agree. */
  lemma {:induction false} Utf16LengthOfBmp(s: string)
    requires forall i :: 0 <= i < |s| ==> s[i] < '\U{10000}'
    ensures Utf16Length(s) == |s|
  {
    if |s| > 0 {
      Utf16LengthOfBmp(s[1..]);
    }
  }

  /** Each character outside the Basic Multilingual Plane counts twice. */
  lemma {:induction false} Utf16LengthOfAstral(s: string)
    requires forall i :: 0 <= i < |s| ==> s[i] >= '\U{10000}'
    ensures Utf16Length(s) == 2 * |s|
  {
    if |s| > 0 {
      Utf16LengthOfAstral(s[1..]);
    }
  }

  predicate AllDigits(s: string) { forall i :: 0 <= i < |s| ==> IsDigit(s[i]) }

  /** `toLowerCase` of one character, restricted to ASCII. */
  function LowerChar(c: char): char {
    if IsUpper(c) then (c as int + 32) as char else c
  }

  function Lower(s: string): (r: string)
    ensures |r| == |s|
    ensures forall i :: 0 <= i < |s| ==> r[i] == LowerChar(s[i])
  {
    seq(|s|, i requires 0 <= i < |s| => LowerChar(s[i]))
  }

  lemma LowerAppend(a: string, b: string)
    ensures Lower(a + b) == Lower(a) + Lower(b)
  {
    assert forall i :: 0 <= i < |a + b| ==> Lower(a + b)[i] == (Lower(a) + Lower(b))[i];
  }

  /** Lower-casing twice is lower-casing once. */
  lemma LowerIdempotent(s: string)
    ensures Lower(Lower(s)) == Lower(s)
  {
    assert forall i :: 0 <= i < |s| ==> LowerChar(LowerChar(s[i])) == LowerChar(s[i]);
  }

  /** A string without upper-case ASCII letters is its own lower-case form. */
  lemma LowerOfLower(s: string)
    requires forall i :: 0 <= i < |s| ==> !IsUpper(s[i])
    ensures Lower(s) == s
  {
  }

  /** The white space and line terminators that `String.prototype.trim` removes. */
  predicate IsTrimmable(c: char) {
    || c == '\t' || c == '\n' || c == '\U{000B}' || c == '\U{000C}' || c == '\r' || c == ' '
    || c == '\U{00A0}' || c == '\U{1680}' || ('\U{2000}' <= c <= '\U{200A}')
    || c == '\U{2028}' || c == '\U{2029}' || c == '\U{202F}' || c == '\U{205F}'
    || c == '\U{3000}' || c == '\U{FEFF}'
  }

  function TrimStart(s: string): (r: string)
    ensures |r| <= |s| && r == s[|s| - |r|..]
    ensures |r| > 0 ==> !IsTrimmable(r[0])
    ensures forall i :: 0 <= i < |s| - |r| ==> IsTrimmable(s[i])
  {
    if |s| > 0 && IsTrimmable(s[0]) then TrimStart(s[1..]) else s
  }

  function TrimEnd(s: string): (r: string)
    ensures |r| <= |s| && r == s[..|r|]
    ensures |r| > 0 ==> !IsTrimmable(r[|r| - 1])
    ensures forall i :: |r| <= i < |s| ==> IsTrimmable(s[i])
  {
    if |s| > 0 && IsTrimmable(s[|s| - 1]) then TrimEnd(s[..|s| - 1]) else s
  }

  /** `String.prototype.trim`: the longest infix with no trimmable first or last character. */
  function Trim(s: string): (r: string)
    ensures |r| > 0 ==> !IsTrimmable(r[0]) && !IsTrimmable(r[|r| - 1])
    ensures |r| <= |s|
    ensures |s| == 0 || (!IsTrimmable(s[0]) && !IsTrimmable(s[|s| - 1])) ==> r == s
  {
    TrimEnd(TrimStart(s))
  }

  predicate StartsWith(s: string, prefix: string) { prefix <= s }

  predicate EndsWith(s: string, suffix: string) {
    |suffix| <= |s| && s[|s| - |suffix|..] == suffix
  }

  lemma EndsWithAppend(a: string, suffix: string)
    ensures EndsWith(a + suffix, suffix)
  {
    assert (a + suffix)[|a|..] == suffix;
  }

  /** `String.prototype.includes`: `t` occurs in `s` at some offset. */
  predicate Contains(s: string, t: string)
    decreases |s|
  {
    StartsWith(s, t) || (|s| > 0 && Contains(s[1..], t))
  }

  /** Every string contains the empty string. */
  lemma ContainsEmpty(s: string)
    ensures Contains(s, "")
  {
  }

  /** A string contains itself, and so every string it is a suffix of. */
  lemma {:induction false} ContainsSuffix(s: string, t: string, k: nat)
    requires k <= |s| && s[k..] == t
    ensures Contains(s, t)
    decreases k
  {
    if k > 0 {
      assert s[1..][k - 1..] == t;
      ContainsSuffix(s[1..], t, k - 1);
    }
  }

  /** A string never contains a longer one. */
  lemma {:induction false} ContainsLonger(s: string, t: string)
    requires |t| > |s|
    ensures !Contains(s, t)
    decreases |s|
  {
    if |s| > 0 {
      ContainsLonger(s[1..], t);
    }
  }

  function DigitChar(d: nat): (c: char)
    requires d < 10
    ensures IsDigit(c)
  {
    ('0' as int + d) as char
  }

  function DigitValue(c: char): nat
    requires IsDigit(c)
  {
    c as int - '0' as int
  }

  /** Decimal rendering of a natural number, as JavaScript prints an integer. */
  function NatToString(n: nat): (r: string)
    ensures |r| >= 1 && AllDigits(r)
    ensures |r| > 1 ==> r[0] != '0'
  {
    if n < 10 then [DigitChar(n)] else NatToString(n / 10) + [DigitChar(n % 10)]
  }

  /** An optional `-` followed by decimal digits. */
  predicate IsIntString(s: string) {
    |s| >= 1 && (if s[0] == '-' then AllDigits(s[1..]) else AllDigits(s))
  }

  /** Decimal rendering of an integer, with a leading `-` when negative. */
  function IntToString(n: int): (r: string)
    ensures IsIntString(r)
    ensures n < 0 <==> r[0] == '-'
  {
    if n < 0 then
      var d := NatToString(-n);
      assert ("-" + d)[1..] == d;
      "-" + d
    else NatToString(n)
  }

  /** Decimal reading of a digit string; the inverse of `NatToString`. */
  function ParseNat(s: string): nat
    requires AllDigits(s)
  {
    if |s| == 0 then 0 else ParseNat(s[..|s| - 1]) * 10 + DigitValue(s[|s| - 1])
  }

  function ParseInt(s: string): (n: int)
    requires IsIntString(s)
  {
    if s[0] == '-' then 0 - ParseNat(s[1..]) else ParseNat(s)
  }

  lemma {:induction false} ParseNatToString(n: nat)
    ensures ParseNat(NatToString(n)) == n
  {
    if n >= 10 {
      var s := NatToString(n);
      assert s[..|s| - 1] == NatToString(n / 10);
      ParseNatToString(n / 10);
    }
  }

  /** Reading back a rendered integer gives the integer. */
  lemma ParseIntToString(n: int)
    ensures ParseInt(IntToString(n)) == n
  {
    if n < 0 {
      assert IntToString(n)[1..] == NatToString(-n);
      ParseNatToString(-n);
    } else {
      ParseNatToString(n);
    }
  }

  /** Text appended after a string keeps every occurrence in it. */
  lemma {:induction false} ContainsExtend(a: string, b: string, t: string)
    requires Contains(a, t)
    ensures Contains(a + b, t)
    decreases |a|
  {
    if !StartsWith(a, t) {
      assert (a + b)[1..] == a[1..] + b;
      ContainsExtend(a[1..], b, t);
    }
  }

  /** A prefix of `a + b` longer than `a` holds `b`'s first character. */
  lemma SeamChar(a: string, b: string, t: string)
    requires |b| > 0
    ensures StartsWith(a + b, t) && |t| > |a| ==> b[0] in t
  {
    if StartsWith(a + b, t) && |t| > |a| {
      assert t[|a|] == (a + b)[|a|];
    }
  }

  /** An occurrence of `t` in `a + b` lies inside `a` when `t` cannot reach across the
      seam (it lacks `b`'s first character) and does not occur in the rest of `b`. */
  lemma {:induction false} ContainsAcross(a: string, b: string, t: string)
    requires |t| > 0 && |b| > 0 && b[0] !in t && !Contains(b[1..], t)
    ensures Contains(a + b, t) <==> Contains(a, t)
    decreases |a|
  {
    if Contains(a, t) {
      ContainsExtend(a, b, t);
    } else if |a| == 0 {
      assert a + b == b;
      SeamChar(a, b, t);
    } else {
      assert (a + b)[1..] == a[1..] + b;
      ContainsAcross(a[1..], b, t);
      SeamChar(a, b, t);
    }
  }

  /** `Array.prototype.join(sep)` for a one-character separator. */
  function Join(parts: seq<string>, sep: char): string {
    if |parts| == 0 then ""
    else if |parts| == 1 then parts[0]
    else parts[0] + [sep] + Join(parts[1..], sep)
  }

  /** A character other than the separator that no part contains is not in the joined text. */
  lemma {:induction false} JoinAvoids(parts: seq<string>, sep: char, x: char)
    requires x != sep
    requires forall i :: 0 <= i < |parts| ==> x !in parts[i]
    ensures x !in Join(parts, sep)
  {
    if |parts| > 1 {
      JoinAvoids(parts[1..], sep, x);
    }
  }

  /** The joined text begins with the first part. */
  lemma JoinStartsWith(parts: seq<string>, sep: char)
    requires |parts| >= 1
    ensures StartsWith(Join(parts, sep), parts[0])
  {
    if |parts| > 1 {
      assert Join(parts, sep) == parts[0] + ([sep] + Join(parts[1..], sep));
    }
  }

  /** An empty last part adds one separator at the end: `[..., ""].join(sep)`. */
  lemma {:induction false} JoinEmptyLast(parts: seq<string>, sep: char)
    requires |parts| >= 1
    ensures Join(parts + [""], sep) == Join(parts, sep) + [sep]
    decreases |parts|
  {
    if |parts| == 1 {
      assert (parts + [""])[1..] == [""];
    } else {
      assert (parts + [""])[1..] == parts[1..] + [""];
      JoinEmptyLast(parts[1..], sep);
    }
  }

  /** `String.prototype.split(sep)` for a one-character separator. */
  function Split(s: string, sep: char): (r: seq<string>)
    ensures |r| >= 1
    ensures forall i :: 0 <= i < |r| ==> sep !in r[i]
  {
    if |s| == 0 then [""]
    else
      var rest := Split(s[1..], sep);
      if s[0] == sep then [""] + rest else [[s[0]] + rest[0]] + rest[1..]
  }

  /** Splitting and re-joining gives back the text. */
  lemma {:induction false} JoinSplit(s: string, sep: char)
    ensures Join(Split(s, sep), sep) == s
  {
    if |s| > 0 {
      var rest := Split(s[1..], sep);
      JoinSplit(s[1..], sep);
      if s[0] == sep {
        assert Split(s, sep) == [""] + rest;
      } else {
        if |rest| == 1 {
          assert Join(rest, sep) == rest[0];
        } else {
          assert Join(rest, sep) == rest[0] + [sep] + Join(rest[1..], sep);
        }
      }
    }
  }

  /** Joining pieces free of the separator and splitting again gives back the pieces. */
  lemma {:induction false} SplitJoin(parts: seq<string>, sep: char)
    requires |parts| >= 1
    requires forall i :: 0 <= i < |parts| ==> sep !in parts[i]
    ensures Split(Join(parts, sep), sep) == parts
    decreases |parts|
  {
    if |parts| == 1 {
      SplitNoSep(parts[0], sep);
    } else {
      SplitJoin(parts[1..], sep);
      SplitPrefix(parts[0], Join(parts[1..], sep), sep);
      assert parts == [parts[0]] + parts[1..];
    }
  }

  lemma {:induction false} SplitNoSep(s: string, sep: char)
    requires sep !in s
    ensures Split(s, sep) == [s]
  {
    if |s| > 0 {
      SplitNoSep(s[1..], sep);
      assert [s[0]] + s[1..] == s;
    }
  }

  lemma {:induction false} SplitPrefix(a: string, b: string, sep: char)
    requires sep !in a
    ensures Split(a + [sep] + b, sep) == [a] + Split(b, sep)
  {
    if |a| == 0 {
      assert a + [sep] + b == [sep] + b;
      assert ([sep] + b)[1..] == b;
    } else {
      assert (a + [sep] + b)[1..] == a[1..] + [sep] + b;
      SplitPrefix(a[1..], b, sep);
      assert [a[0]] + a[1..] == a;
    }
  }

  /** The decimal digits of `s`, in order: `s.replace(/\D/g, '')`. */
  function DigitsOf(s: string): (r: string)
    ensures AllDigits(r) && |r| <= |s|
  {
    if |s| == 0 then ""
    else if IsDigit(s[0]) then [s[0]] + DigitsOf(s[1..])
    else DigitsOf(s[1..])
  }

  lemma {:induction false} DigitsOfDigits(s: string)
    requires AllDigits(s)
    ensures DigitsOf(s) == s
  {
    if |s| > 0 {
      DigitsOfDigits(s[1..]);
    }
  }
}

=== FILE: theme.dfy ===
/** The theme manager: a stored preference among light, dark and system, the theme
    actually applied to the page, and the three-button toggle. */
module Theme {
  import opened Wrappers

  const ThemeKey: string := "krmu-theme"

  datatype Theme = Light | Dark | System

  /** `THEMES`, in the order the toggle shows its buttons. */
  const Themes: seq<Theme> := [Light, Dark, System]

  function Name(t: Theme): string {
    match t
    case Light => "light"
    case Dark => "dark"
    case System => "system"
  }

  /** `THEMES.includes(s)`, giving the theme named. */
  function Parse(s: string): (r: Option<Theme>)
    ensures r.Some? <==> s == "light" || s == "dark" || s == "system"
    ensures r.Some? ==> Name(r.value) == s
  {
    if s == "light" then Some(Light)
    else if s == "dark" then Some(Dark)
    else if s == "system" then Some(System)
    else None
  }

  lemma ParseName(t: Theme)
    ensures Parse(Name(t)) == Some(t)
  {
  }

  /** The state of the page the theme manager touches: `localStorage`, the root
      element's `data-theme`, and the `theme-color` meta tag's content if the tag exists. */
  datatype Page = Page(storage: map<string, string>, dataTheme: Option<string>, metaColor: Option<string>)

  /** The `theme-change` event's detail. */
  datatype Event = ThemeChange(preference: string, resolved: string)

  datatype SetResult = SetResult(page: Page, events: seq<Event>)

  /** `getThemePreference()`: the stored theme if it names one, otherwise light. */
  function Preference(storage: map<string, string>): (t: Theme)
    ensures ThemeKey in storage && Parse(storage[ThemeKey]).Some? ==> t == Parse(storage[ThemeKey]).value
    ensures (ThemeKey !in storage || Parse(storage[ThemeKey]).None?) ==> t == Light
  {
    if ThemeKey in storage && Parse(storage[ThemeKey]).Some? then Parse(storage[ThemeKey]).value else Light
  }

  /** `getResolvedTheme()`, with `osDark` the answer to `(prefers-color-scheme: dark)`. */
  function Resolve(pref: Theme, osDark: bool): (r: Theme)
    ensures r != System
    ensures pref != System ==> r == pref
    ensures pref == System ==> (r == Dark <==> osDark)
  {
    if pref == System then (if osDark then Dark else Light) else pref
  }

  /** `applyTheme(theme)` for a resolved theme. */
  function Apply(page: Page, t: Theme): (r: Page)
    ensures r.storage == page.storage
    ensures r.dataTheme == Some(Name(t))
    ensures r.metaColor.Some? <==> page.metaColor.Some?
    ensures r.metaColor.Some? ==> r.metaColor.value == (if t == Dark then "#0a0a0c" else "#ffffff")
  {
    Page(page.storage, Some(Name(t)),
      if page.metaColor.Some? then Some(if t == Dark then "#0a0a0c" else "#ffffff") else None)
  }

  /** `setTheme(value)`: an unknown name is ignored; otherwise the name is stored, the resolved
      theme applied, and one `theme-change` event dispatched. */
  function SetTheme(page: Page, value: string, osDark: bool): (r: SetResult)
    ensures Parse(value).None? ==> r == SetResult(page, [])
    ensures Parse(value).Some? ==>
      var t := Parse(value).value;
      && r.page.storage == page.storage[ThemeKey := value]
      && Preference(r.page.storage) == t
      && r.page.dataTheme == Some(Name(Resolve(t, osDark)))
      && r.page.metaColor == Apply(page, Resolve(t, osDark)).metaColor
      && r.events == [ThemeChange(value, Name(Resolve(t, osDark)))]
  {
    match Parse(value)
    case None => SetResult(page, [])
    case Some(_) =>
      var storage := page.storage[ThemeKey := value];
      var resolved := Resolve(Preference(storage), osDark);
      SetResult(Apply(page.(storage := storage), resolved), [ThemeChange(value, Name(resolved))])
  }

  /** `initTheme()`'s first step: the stored preference, resolved, applied. */
  function Init(page: Page, osDark: bool): Page {
    Apply(page, Resolve(Preference(page.storage), osDark))
  }

  /** Choosing the same theme twice leaves the page as choosing it once. */
  lemma SetThemeIdempotent(page: Page, value: string, osDark: bool)
    ensures var once := SetTheme(page, value, osDark).page;
      SetTheme(once, value, osDark).page == once
  {
  }

  /** A chosen theme survives a reload: initialising the page it left changes nothing. */
  lemma ChoicePersists(page: Page, value: string, osDark: bool)
    requires Parse(value).Some?
    ensures var after := SetTheme(page, value, osDark).page;
      Init(after, osDark) == after
  {
  }

  /** The toggle's buttons, in `Themes` order, and which of them is marked active. */
  function CreateToggle(storage: map<string, string>): (active: seq<bool>)
    ensures |active| == |Themes|
    ensures forall i :: 0 <= i < |Themes| ==> (active[i] <==> Themes[i] == Preference(storage))
  {
    seq(|Themes|, i requires 0 <= i < |Themes| => Themes[i] == Preference(storage))
  }

  /** A click on the `i`-th button: that theme is set and only that button is active. */
  function Click(page: Page, i: nat, osDark: bool): (r: (SetResult, seq<bool>))
    requires i < |Themes|
    ensures r.0 == SetTheme(page, Name(Themes[i]), osDark)
    ensures |r.1| == |Themes|
    ensures forall j :: 0 <= j < |Themes| ==> (r.1[j] <==> j == i)
  {
    (SetTheme(page, Name(Themes[i]), osDark), seq(|Themes|, j requires 0 <= j < |Themes| => j == i))
  }

  /** Exactly one button is active, and after a click the toggle agrees with the stored
      preference, as a freshly created toggle would. */
  lemma ClickAgreesWithToggle(page: Page, i: nat, osDark: bool)
    requires i < |Themes|
    ensures var (res, active) := Click(page, i, osDark);
      active == CreateToggle(res.page.storage)
  {
    ParseName(Themes[i]);
    var (res, active) := Click(page, i, osDark);
    var expected := CreateToggle(res.page.storage);
    forall j | 0 <= j < |Themes| ensures active[j] == expected[j] {
      assert Themes[j] == Themes[i] <==> j == i;
    }
  }
}

=== FILE: ui.dfy ===
/** `escapeHtml`: five global replacements applied in sequence, `&` first. */
module HtmlEscape {

  /** The argument as `typeof` sees it: a string, or anything else. */
  datatype Value = Str(s: string) | NonString

  /** `s.replace(/c/g, rep)` for a single character `c` and a replacement without `$`. */
  function ReplaceAll(s: string, c: char, rep: string): string {
    if |s| == 0 then ""
    else (if s[0] == c then rep else [s[0]]) + ReplaceAll(s[1..], c, rep)
  }

  /** The replacement chain as written, on a string argument. */
  function EscapeChain(s: string): string {
    ReplaceAll(ReplaceAll(ReplaceAll(ReplaceAll(ReplaceAll(
      s, '&', "&amp;"), '<', "&lt;"), '>', "&gt;"), '"', "&quot;"), '\'', "&#039;")
  }

  /** `escapeHtml(unsafe)`. */
  function EscapeHtml(v: Value): string {
    match v
    case NonString => ""
    case Str(s) => EscapeChain(s)
  }

  predicate IsSpecial(c: char) { c == '&' || c == '<' || c == '>' || c == '"' || c == '\'' }

  /** The entity each special character becomes. */
  function EscapeChar(c: char): string {
    if c == '&' then "&amp;"
    else if c == '<' then "&lt;"
    else if c == '>' then "&gt;"
    else if c == '"' then "&quot;"
    else if c == '\'' then "&#039;"
    else [c]
  }

  /** The reference definition: each character mapped on its own and the results concatenated. */
  function EscapeEach(s: string): string {
    if |s| == 0 then "" else EscapeChar(s[0]) + EscapeEach(s[1..])
  }

  lemma {:induction false} ReplaceAllAppend(a: string, b: string, c: char, rep: string)
    ensures ReplaceAll(a + b, c, rep) == ReplaceAll(a, c, rep) + ReplaceAll(b, c, rep)
  {
    if |a| > 0 {
      assert (a + b)[1..] == a[1..] + b;
      ReplaceAllAppend(a[1..], b, c, rep);
    } else {
      assert a + b == b;
    }
  }

  lemma {:induction false} ReplaceAllAbsent(s: string, c: char, rep: string)
    requires c !in s
    ensures ReplaceAll(s, c, rep) == s
  {
    if |s| > 0 {
      ReplaceAllAbsent(s[1..], c, rep);
      assert [s[0]] + s[1..] == s;
    }
  }

  lemma EscapeChainAppend(a: string, b: string)
    ensures EscapeChain(a + b) == EscapeChain(a) + EscapeChain(b)
  {
    var a1, b1 := ReplaceAll(a, '&', "&amp;"), ReplaceAll(b, '&', "&amp;");
    ReplaceAllAppend(a, b, '&', "&amp;");
    var a2, b2 := ReplaceAll(a1, '<', "&lt;"), ReplaceAll(b1, '<', "&lt;");
    ReplaceAllAppend(a1, b1, '<', "&lt;");
    var a3, b3 := ReplaceAll(a2, '>', "&gt;"), ReplaceAll(b2, '>', "&gt;");
    ReplaceAllAppend(a2, b2, '>', "&gt;");
    var a4, b4 := ReplaceAll(a3, '"', "&quot;"), ReplaceAll(b3, '"', "&quot;");
    ReplaceAllAppend(a3, b3, '"', "&quot;");
    ReplaceAllAppend(a4, b4, '\'', "&#039;");
  }

  lemma ReplaceAllOne(x: char, c: char, rep: string)
    ensures ReplaceAll([x], c, rep) == if x == c then rep else [x]
  {
    assert [x][1..] == [];
  }

  /** After the replacement of `c`, the later replacements find nothing to replace. */
  lemma ChainTail(e: string, from: nat)
    requires from <= 4
    requires from <= 1 ==> '<' !in e
    requires from <= 2 ==> '>' !in e
    requires from <= 3 ==> '"' !in e
    requires '\'' !in e
    ensures from == 1 ==> ReplaceAll(ReplaceAll(ReplaceAll(ReplaceAll(e, '<', "&lt;"), '>', "&gt;"), '"', "&quot;"), '\'', "&#039;") == e
    ensures from == 2 ==> ReplaceAll(ReplaceAll(ReplaceAll(e, '>', "&gt;"), '"', "&quot;"), '\'', "&#039;") == e
    ensures from == 3 ==> ReplaceAll(ReplaceAll(e, '"', "&quot;"), '\'', "&#039;") == e
    ensures from == 4 ==> ReplaceAll(e, '\'', "&#039;") == e
  {
    if from <= 1 { ReplaceAllAbsent(e, '<', "&lt;"); }
    if from <= 2 { ReplaceAllAbsent(e, '>', "&gt;"); }
    if from <= 3 { ReplaceAllAbsent(e, '"', "&quot;"); }
    ReplaceAllAbsent(e, '\'', "&#039;");
  }

  /** On one character the chain produces that character's entity: no entity contains a
      character replaced later, and `&` is replaced before any `&` is produced. */
  lemma EscapeChainChar(c: char)
    ensures EscapeChain([c]) == EscapeChar(c)
  {
    ReplaceAllOne(c, '&', "&amp;");
    if c == '&' {
      ChainTail("&amp;", 1);
      return;
    }
    ReplaceAllOne(c, '<', "&lt;");
    if c == '<' {
      ChainTail("&lt;", 2);
      return;
    }
    ReplaceAllOne(c, '>', "&gt;");
    if c == '>' {
      ChainTail("&gt;", 3);
      return;
    }
    ReplaceAllOne(c, '"', "&quot;");
    if c == '"' {
      ChainTail("&quot;", 4);
      return;
    }
    ReplaceAllOne(c, '\'', "&#039;");
  }

  /** The replacement chain equals the per-character map, so an `&` produced by an
      entity is never escaped a second time. */
  lemma {:induction false} EscapeChainIsPerCharacter(s: string)
    ensures EscapeChain(s) == EscapeEach(s)
  {
    if |s| == 0 {
      assert EscapeChain(s) == "";
    } else {
      assert s == [s[0]] + s[1..];
      EscapeChainAppend([s[0]], s[1..]);
      EscapeChainChar(s[0]);
      EscapeChainIsPerCharacter(s[1..]);
    }
  }

  /** The escaped text holds no `<`, `>`, `"` or `'`, is at least as long as the input,
      and text without special characters is returned unchanged. */
  lemma {:induction false} EscapeEachProperties(s: string)
    ensures var r := EscapeEach(s);
      '<' !in r && '>' !in r && '"' !in r && '\'' !in r && |r| >= |s|
    ensures (forall i :: 0 <= i < |s| ==> !IsSpecial(s[i])) ==> EscapeEach(s) == s
  {
    if |s| > 0 {
      EscapeEachProperties(s[1..]);
      EscapeCharProperties(s[0]);
      var e, rest := EscapeChar(s[0]), EscapeEach(s[1..]);
      assert EscapeEach(s) == e + rest;
      assert forall x :: x in e + rest ==> x in e || x in rest;
      assert [s[0]] + s[1..] == s;
    }
  }

  lemma EscapeCharProperties(c: char)
    ensures var e := EscapeChar(c);
      '<' !in e && '>' !in e && '"' !in e && '\'' !in e && |e| >= 1
    ensures !IsSpecial(c) ==> EscapeChar(c) == [c]
  {
  }

  /** `escapeHtml` on any argument: "" for a non-string, otherwise the per-character map,
      free of `<`, `>`, `"` and `'`, never shorter, and the identity on plain text. */
  lemma EscapeHtmlSpec(v: Value)
    ensures v.NonString? ==> EscapeHtml(v) == ""
    ensures v.Str? ==> EscapeHtml(v) == EscapeEach(v.s)
    ensures v.Str? ==> |EscapeHtml(v)| >= |v.s|
    ensures var r := EscapeHtml(v); '<' !in r && '>' !in r && '"' !in r && '\'' !in r
    ensures v.Str? && (forall i :: 0 <= i < |v.s| ==> !IsSpecial(v.s[i])) ==> EscapeHtml(v) == v.s
  {
    if v.Str? {
      EscapeChainIsPerCharacter(v.s);
      EscapeEachProperties(v.s);
    }
  }

  /** Decoding of the five entities `escapeHtml` produces; every other character stands for itself. */
  function Unescape(s: string): string
    decreases |s|
  {
    if |s| == 0 then ""
    else if "&amp;" <= s then "&" + Unescape(s[5..])
    else if "&lt;" <= s then "<" + Unescape(s[4..])
    else if "&gt;" <= s then ">" + Unescape(s[4..])
    else if "&quot;" <= s then "\"" + Unescape(s[6..])
    else if "&#039;" <= s then "'" + Unescape(s[6..])
    else [s[0]] + Unescape(s[1..])
  }

  /** Escaping loses nothing: decoding the entities gives back the original text. */
  lemma {:induction false} UnescapeEscape(s: string)
    ensures Unescape(EscapeEach(s)) == s
  {
    if |s| > 0 {
      UnescapeEscape(s[1..]);
      UnescapeEntity(s[0], EscapeEach(s[1..]));
      assert [s[0]] + s[1..] == s;
    }
  }

  /** Decoding the entity of `c` followed by more text gives `c` followed by the decoded rest. */
  lemma UnescapeEntity(c: char, rest: string)
    ensures Unescape(EscapeChar(c) + rest) == [c] + Unescape(rest)
  {
    var t := EscapeChar(c) + rest;
    assert t[|EscapeChar(c)|..] == rest;
    if !IsSpecial(c) {
      assert t[0] == c;
      assert !("&amp;" <= t) && !("&lt;" <= t) && !("&gt;" <= t) && !("&quot;" <= t) && !("&#039;" <= t) by {
        assert "&amp;"[0] == '&' && "&lt;"[0] == '&' && "&gt;"[0] == '&' && "&quot;"[0] == '&' && "&#039;"[0] == '&';
      }
    } else {
      assert EscapeChar(c) <= t;
      if c != '&' {
        assert t[1] != 'a' && "&amp;"[1] == 'a';
      }
      if c != '&' && c != '<' {
        assert t[1] != 'l' && "&lt;"[1] == 'l';
      }
      if c == '"' || c == '\'' {
        assert t[1] != 'g' && "&gt;"[1] == 'g';
      }
      if c == '\'' {
        assert t[1] != 'q' && "&quot;"[1] == 'q';
      }
    }
  }
}

/** `timeAgo`: the elapsed time as the largest unit whose length is strictly exceeded. */
module RelativeTime {
  import opened Wrappers
  import opened Text

  datatype Unit = Minutes | Hours | Days | Months | Years

  /** The unit's length in seconds, as the source's divisors give it. */
  function Seconds(u: Unit): int {
    match u
    case Minutes => 60
    case Hours => 3600
    case Days => 86400
    case Months => 2592000
    case Years => 31536000
  }

  function Name(u: Unit): string {
    match u
    case Minutes => "mins"
    case Hours => "hours"
    case Days => "days"
    case Months => "months"
    case Years => "years"
  }

  /** Position of a unit from shortest to longest. */
  function Rank(u: Unit): nat {
    match u
    case Minutes => 0
    case Hours => 1
    case Days => 2
    case Months => 3
    case Years => 4
  }

  datatype Ago = JustNow | Ago(count: int, unit: Unit)

  /** The chain of `interval > 1` tests on whole elapsed seconds; `interval > 1` with
      `interval = seconds / d` is `seconds > d`, and `Math.floor(interval)` is `seconds / d`. */
  function Bucket(seconds: int): (r: Ago)
    ensures r == JustNow <==> seconds <= 60
    ensures r.Ago? ==> seconds > Seconds(r.unit)
    ensures r.Ago? ==> r.count * Seconds(r.unit) <= seconds < (r.count + 1) * Seconds(r.unit)
    ensures r.Ago? ==> forall u :: Rank(u) > Rank(r.unit) ==> seconds <= Seconds(u)
    ensures r.Ago? && r.unit == Minutes ==> 1 <= r.count <= 60
    ensures r.Ago? && r.unit == Hours ==> 1 <= r.count <= 24
    ensures r.Ago? && r.unit == Days ==> 1 <= r.count <= 30
    ensures r.Ago? && r.unit == Months ==> 1 <= r.count <= 12
    ensures r.Ago? && r.unit == Years ==> 1 <= r.count
  {
    if seconds > 31536000 then Ago(seconds / 31536000, Years)
    else if seconds > 2592000 then Ago(seconds / 2592000, Months)
    else if seconds > 86400 then Ago(seconds / 86400, Days)
    else if seconds > 3600 then Ago(seconds / 3600, Hours)
    else if seconds > 60 then Ago(seconds / 60, Minutes)
    else JustNow
  }

  function Render(a: Ago): string {
    match a
    case JustNow => "just now"
    case Ago(n, u) => IntToString(n) + " " + Name(u) + " ago"
  }

  /** `timeAgo(dateString)` with `now` the current time and `date` the parsed instant,
      both in milliseconds; `None` is an invalid date, whose `NaN` fails every test. */
  function TimeAgo(date: Option<int>, now: int): string {
    match date
    case None => "just now"
    case Some(d) => Render(Bucket((now - d) / 1000))
  }

  /** Whole elapsed seconds are `Math.floor((now - date) / 1000)`; Dafny's division by a
      positive divisor rounds down, negative differences included. */
  lemma ElapsedIsFloor(now: int, date: int)
    ensures var s := (now - date) / 1000; s * 1000 <= now - date < (s + 1) * 1000
  {
  }

  /** Future and invalid dates, and anything up to a minute old, read "just now". */
  lemma JustNowCases(date: Option<int>, now: int)
    ensures date.None? ==> TimeAgo(date, now) == "just now"
    ensures date.Some? && now - date.value < 61000 ==> TimeAgo(date, now) == "just now"
  {
  }

  /** The boundaries: 60 s is "just now", 61 s is "1 mins ago", 3600 s is "60 mins ago",
      3601 s is "1 hours ago". */
  lemma Boundaries()
    ensures Render(Bucket(60)) == "just now"
    ensures Render(Bucket(61)) == "1 mins ago"
    ensures Render(Bucket(3600)) == "60 mins ago"
    ensures Render(Bucket(3601)) == "1 hours ago"
  {
    assert Bucket(61) == Ago(1, Minutes) && Bucket(3600) == Ago(60, Minutes);
    assert Bucket(3601) == Ago(1, Hours);
    assert IntToString(1) == "1";
    assert IntToString(60) == "60" by {
      assert NatToString(6) == "6";
      assert NatToString(60) == "6" + [DigitChar(0)];
    }
    assert "1" + " " + "mins" + " ago" == "1 mins ago";
    assert "60" + " " + "mins" + " ago" == "60 mins ago";
    assert "1" + " " + "hours" + " ago" == "1 hours ago";
  }

  /** Order of buckets: by unit, then by count; "just now" first. */
  predicate AtMost(a: Ago, b: Ago) {
    a.JustNow? || (b.Ago? && (Rank(a.unit) < Rank(b.unit) || (a.unit == b.unit && a.count <= b.count)))
  }

  /** More elapsed time never yields an earlier-looking label. */
  lemma BucketMonotone(s1: int, s2: int)
    requires s1 <= s2
    ensures AtMost(Bucket(s1), Bucket(s2))
  {
    var a, b := Bucket(s1), Bucket(s2);
    if a.Ago? && b.Ago? && a.unit == b.unit {
      var d := Seconds(a.unit);
      assert a.count == s1 / d && b.count == s2 / d;
      DivMonotone(s1, s2, d);
    }
  }

  lemma DivMonotone(x: int, y: int, d: int)
    requires x <= y && d > 0
    ensures x / d <= y / d
  {
    if x / d > y / d {
      assert (y / d + 1) * d <= (x / d) * d by {
        MulMonotone(y / d + 1, x / d, d);
      }
    }
  }

  lemma MulMonotone(a: int, b: int, d: int)
    requires a <= b && d > 0
    ensures a * d <= b * d
  {
  }
}

=== FILE: wrappers.dfy ===
/** An optional value: the model's stand-in for JavaScript's `undefined`/`null`
    where the source tests a value for presence. */
module Wrappers {

  datatype Option<+T> = None | Some(value: T) {

    /** The value, or `fallback` when absent. */
    function GetOr(fallback: T): T {
      match this
      case Some(v) => v
      case None => fallback
    }
  }
}
